=== FILE: README.md ===
# Device detection, device registry and handler registry — a Dafny model

This project models the core of a serial-device management server for Serial Cables
Atlas3 PCIe switches and HYDRA JBOF controllers:

- **device detection** (app/devices/detection.py):
  - the signature catalogue with its USB vendor/product-ID pre-filter;
  - the `ver` probe with its retry policy;
  - sanitising of the device's answer;
  - regex field extraction;
  - two-tier model matching;
  - the detection cache with its fast parallel scan.
- **the device abstraction layer** (app/devices/base.py):
  - connection-state bookkeeping;
  - the device manager's registry;
  - the text export of a command result.
- **the API handler registry** (app/api/handlers/base_handler.py): type names map to handler classes, with one lazily created instance per type.

The Python classes that keep mutable state are modelled as pure state-transition functions over immutable values. This covers `DetectionCache`, `DeviceManager`, `HandlerRegistry` and a device's connection fields. Each operation takes the old state and returns the new state next to its Python return value.

The environment enters the model as parameters:

- **Regular-expression search** is a function `search(pattern, text)`. It returns the first match's group 1, or nothing.
- **One serial exchange** is an `Attempt`. It is either decoded text, no bytes, a serial error, or another error.
- **Scan tasks** are an `outcome` per port, which is either the fast probe's attempt or an exception.
- **The clock** is a `now` value.

Modules:

| file | module | models |
|---|---|---|
| common.dfy | Common | `Optional`, Python truthiness, first-match search |
| text.dfy | Text | substring search, `upper`/`lower`, `isspace`, `strip`/`rstrip`, `split`/`join`, `%04X` hex formatting |
| signatures.dfy | Signatures | `DeviceSignatures`: default catalogue, settings, known models, USB ID matching |
| sanitize.dfy | Sanitize | `_clean_response` |
| detector.dfy | Detector | `DetectionResult`, `_extract_field`, `_match_device`, `_send_ver_command`, `detect`, `_detect_fast` |
| cache.dfy | Cache | `DetectionCache`: lookup, `invalidate`, `scan_all_ports_fast` |
| devices.dfy | Devices | base.py: enums, `BaseDevice` state, `DeviceManager`, `CommandResult.to_text` |
| handlers.dfy | Handlers | `HandlerRegistry`, `get_handler` |

## Tier order

A two-pass reading of the tiers would try every signature's known models first, and only then any signature's model patterns. That is not what `_match_device` does (app/devices/detection.py:366-408): it runs both tiers for one signature before moving on to the next. A pattern hit in an earlier signature therefore beats a known-model hit in a later one.

The model follows the code (`Detector.MatchDevice`, `Detector.FirstMatchDecides`). The two-pass reading is written down separately as `Detector.MatchTwoPass`, for contrast only. `Detector.InterleavedDiffersFromTwoPass` shows a two-signature catalogue and a response on which the two readings pick different device types.

## Model

| member | source | states |
|---|---|---|
| Signatures.GetSettings | app/devices/detection.py:140-147 | The document's `detection_settings` object when it has one; otherwise 115200 baud, 2.0 s timeout, command `ver\r\n`, 2 attempts |
| Signatures.ResolveSettings | app/devices/detection.py:252-262 | Each probe parameter is the settings' value when the key is present and the built-in default (115200, 2.0, `ver\r\n`, 2) when it is missing |
| Signatures.ProbeParametersFromDocument | app/devices/detection.py:252-262 | For every catalogue: a key its settings hold decides that parameter, a missing key or missing settings object gives the default |
| Signatures.DefaultProbeParameters | app/devices/detection.py:140-147 | With no `detection_settings` (or the built-in catalogue) the probe runs at 115200 baud, 2.0 s timeout, command `ver\r\n`, 2 attempts |
| Signatures.GetKnownModels | app/devices/detection.py:149-154 | The known models of the first signature with the given device type; empty when no signature has that type |
| Signatures.KnownUsbIds | app/devices/detection.py:156-169 | At most one entry per signature; every entry has non-empty, upper-cased VID and PID |
| Signatures.KnownUsbIdsMembers | app/devices/detection.py:156-169 | An entry is listed exactly when some signature's `usb_ids` yields it |
| Signatures.KnownUsbIdsConcat | app/devices/detection.py:162-168 | The list follows catalogue order: the entries of a concatenated catalogue are the two parts' entries in sequence |
| Signatures.DefaultCatalogueHasNoUsbIds | app/devices/detection.py:85-134 | The built-in catalogue carries no USB IDs, so its ID list is empty |
| Signatures.MatchUsbId | app/devices/detection.py:171-199 | An empty hardware ID matches nothing; a device type is returned exactly when some known entry appears in the upper-cased ID, and it is the type of the first such entry |
| Signatures.MatchUsbIdUpper | app/devices/detection.py:185 | Matching ignores case: an upper-cased hardware ID gives the same answer |
| Signatures.PyserialHitIsBareHit | app/devices/detection.py:194-197 | The `VID:PID=v:p` test implies the bare `v:p` test |
| Signatures.UsbHitWithoutPyserial | app/devices/detection.py:190-198 | An entry hits exactly when the Windows test or the bare `v:p` test holds |
| Signatures.UsbEncodingsRecognised | app/devices/detection.py:176-180 | A hardware ID that embeds an entry's IDs in Windows, pyserial or lsusb form, even lower-cased and with any surrounding text, is recognised |
| Signatures.FirstUsbEntryRecognised | app/devices/detection.py:186-192 | A Windows-style hardware ID with the first entry's IDs matches that entry's device type |
| Signatures.NumericHitUnique | app/devices/detection.py:224-227 | `%04X` is injective, so at most one numeric VID/PID pair matches an entry |
| Signatures.MatchNumericIds | app/devices/detection.py:219-228 | A device type is returned exactly when some entry's IDs equal `%04X` of the numeric VID and PID, and it is the first such entry's type |
| Signatures.MatchPortInfo | app/devices/detection.py:201-230 | A truthy hardware-ID match wins; otherwise nothing without both numeric IDs; otherwise the numeric match |
| Signatures.DefaultCatalogueMatchesNoPort | app/devices/detection.py:201-230 | With the built-in catalogue no port is recognised |
| Text.UpperIdempotent | app/devices/detection.py:185-188 | Upper-casing an upper-cased text changes nothing |
| Text.UpperConcat | app/devices/detection.py:185-197 | Upper-casing distributes over concatenation, so each embedded ID form is upper-cased in place |
| Text.Hex04 | app/devices/detection.py:224-225 | `%04X`: at least four upper-case hex digits |
| Text.Hex04RoundTrip | app/devices/detection.py:224-225 | Parsing the `%04X` text gives back the number |
| Text.Strip | app/devices/detection.py:358 | `str.strip`: the result neither starts nor ends with whitespace and occurs in the input |
| Text.StripParts | app/devices/detection.py:358 | `strip` removes only whitespace, and only at the ends: the result occurs in the input with nothing but whitespace before and after it |
| Text.RStrip | app/devices/detection.py:429 | `rstrip(chars)`: the result is no longer than the input and does not end with a stripped character |
| Text.RStripParts | app/devices/detection.py:429 | `rstrip` removes only stripped characters, and only at the end |
| Sanitize.FilterChars | app/devices/detection.py:353-356 | Only printable characters and `\r`, `\n`, `\t` survive, and the result is no longer than the input |
| Sanitize.FilterCharsChar | app/devices/detection.py:353-356 | A single character is kept exactly when it is printable or one of `\r`, `\n`, `\t` |
| Sanitize.FilterCharsConcat | app/devices/detection.py:353-356 | Filtering works character by character, in order: filtering a concatenation filters the parts |
| Sanitize.FilterCharsKept | app/devices/detection.py:353-356 | Text made only of kept characters is unchanged |
| Sanitize.ReplaceCrLf | app/devices/detection.py:357 | Replacing `\r\n` by `\n` never lengthens the text |
| Sanitize.ReplaceCrLfConcat | app/devices/detection.py:357 | Text cut anywhere but right after a `\r` is rewritten part by part |
| Sanitize.ReplaceCrLfPairs | app/devices/detection.py:357 | `\r\n` becomes `\n`, and a `\r` before anything else survives this pass |
| Sanitize.ReplaceCrLfKept | app/devices/detection.py:357 | The pass introduces no character the filter would drop |
| Sanitize.ReplaceCrLfNoCr | app/devices/detection.py:357 | Text without `\r` is unchanged |
| Sanitize.ReplaceCr | app/devices/detection.py:357 | Same length; each `\r` becomes `\n` in place and every other character is kept where it is |
| Sanitize.StripLines | app/devices/detection.py:358 | Each kept line is stripped and non-empty; no lines are added |
| Sanitize.StripLinesSingle | app/devices/detection.py:358 | One line contributes its stripped form, or nothing when that is empty |
| Sanitize.StripLinesConcat | app/devices/detection.py:358 | Lines are processed one by one, in order: a concatenation gives the two parts' results in sequence |
| Sanitize.StripLinesTrimmed | app/devices/detection.py:358 | Lines that are already stripped and non-empty are kept as they are |
| Sanitize.CleanLines | app/devices/detection.py:353-358 | Every line of the cleaned text is stripped, non-empty, newline-free and made only of kept characters |
| Sanitize.CleanLinesOfCleanText | app/devices/detection.py:353-358 | On text of printable characters, newlines and tabs only the split and the strip change anything |
| Sanitize.CleanResponse | app/devices/detection.py:351-359 | The cleaned response contains only kept characters and no `\r`, and each of its lines is stripped and non-empty |
| Sanitize.CleanResponseFixedPoint | app/devices/detection.py:351-359 | Stripped, clean, newline-free lines joined with `\n` are returned unchanged |
| Sanitize.CleanResponseSingleLine | app/devices/detection.py:351-359 | A single line of printable characters and tabs is cleaned to its stripped form |
| Sanitize.CleanResponseIdempotent | app/devices/detection.py:351-359 | Cleaning a cleaned response changes nothing |
| Sanitize.CleanResponseLines | app/devices/detection.py:358-359 | Whenever some line is kept, splitting the cleaned response at newlines gives back exactly the kept lines |
| Detector.ToDict | app/devices/detection.py:32-41 | The dictionary has the seven keys `success`, `device_type`, `model`, `serial_number`, `firmware_version`, `com_port`, `error`, in that order |
| Detector.ToDictRoundTrip | app/devices/detection.py:20-41 | Reading the dictionary back restores every field except the raw response |
| Detector.ToDictOmitsRawResponse | app/devices/detection.py:32-41 | The raw response never reaches the dictionary |
| Detector.ExtractField | app/devices/detection.py:416-434 | A value is returned exactly when the signature has a non-empty pattern for the field and it matches; a non-empty value starts with no whitespace and ends with no box-drawing character, space or tab |
| Detector.ExtractFieldTrims | app/devices/detection.py:427-430 | The value is a prefix of the stripped group, and only stripped characters were cut from it |
| Detector.ExtractFieldClean | app/devices/detection.py:424-430 | A group that is already trimmed is returned unchanged |
| Detector.KnownHitIsPatternHit | app/devices/detection.py:376-395 | The known-model test (equal or contained, case-insensitive) is the same as case-insensitive containment |
| Detector.MatchTier | app/devices/detection.py:373-408 | Tier 1 is the first known model that equals or is contained in the model, ignoring case. Tier 2 is used only when no known model hits, and it is the first pattern so contained. Nothing is returned exactly when neither list hits |
| Detector.MatchDevice | app/devices/detection.py:361-414 | Failure (`Unknown device type`) exactly when no signature matches; on success the result is that of the first matching signature, with a truthy model and no error; the port is kept and no raw response is set |
| Detector.KnownModelIdentified | app/devices/detection.py:366-390 | When no earlier signature matches and a known model equals the extracted model, detection succeeds with that signature's type and model |
| Detector.FirstMatchDecides | app/devices/detection.py:366-408 | For any catalogue, the first signature that matches in either tier decides the whole result (its type, extracted model, serial and firmware), whatever later signatures would accept |
| Detector.InterleavedDiffersFromTwoPass | app/devices/detection.py:366-408 | A concrete catalogue and response on which the code picks the pattern signature and the two-pass reading picks the known-model one |
| Detector.FirstResponse | app/devices/detection.py:294-349 | Any response the retry policy yields is non-empty |
| Detector.SendVerCommand | app/devices/detection.py:280-349 | At most `retry_count` attempts, and the answer equals the recursive retry policy. Every attempt before the last gave no answer and no non-serial error. A response is the sanitised text of the last attempt. No response means the budget was used up or a non-serial error ended the loop |
| Detector.Detect | app/devices/detection.py:242-278 | No response gives `No response from device`. Otherwise the raw response is the first non-empty cleaned answer within the retry budget, and the result is exactly the catalogue match of that answer with the answer as raw response: `Unknown device type` when nothing matches, a catalogue device type when something does |
| Detector.DetectWithAttempts | app/devices/detection.py:242-349 | The loop-based probe uses at most `retry_count` attempts and gives the same result as `Detect` |
| Detector.NoAttemptsNoResponse | app/devices/detection.py:294-349 | With a retry count of zero or less, detection reports no response |
| Detector.DetectFast | app/devices/detection.py:599-700 | One attempt, with a distinct error per case: `No response from device` (no bytes), `Empty response` (nothing left after cleaning), `Serial error: …` (serial error), or the message (other error). Whenever the cleaned answer is non-empty the result is exactly the catalogue match of that answer, carrying it as raw response |
| Detector.FastAgreesWithDetect | app/devices/detection.py:599-700 | When the first attempt answers, the fast probe gives the same result as `detect`; when it raises a non-serial error, neither succeeds |
| Cache.GetCachedResults | app/devices/detection.py:475-478 | A copy with the same ports and results as the cache |
| Cache.GetCachedResult | app/devices/detection.py:480-483 | A result exactly for cached ports, the cached one |
| Cache.Invalidate | app/devices/detection.py:493-499 | A non-empty port name removes only that port and keeps the other entries; no port or an empty name clears the cache |
| Cache.InvalidateThenGet | app/devices/detection.py:480-499 | After invalidation the port (or every port) reads as absent, and other ports read as before |
| Cache.InvalidateIdempotent | app/devices/detection.py:493-499 | Invalidating twice equals invalidating once |
| Cache.PortsToScan | app/devices/detection.py:533-558 | A port is scanned exactly when it is enumerated, not excluded, and (when filtering) recognised by `match_port_info`; never more ports than enumerated |
| Cache.PortsToScanConcat | app/devices/detection.py:537-558 | Selection keeps the enumeration order |
| Cache.DefaultCatalogueScansNothing | app/devices/detection.py:537-548 | With the built-in catalogue a filtered scan selects no port |
| Cache.PortResult | app/devices/detection.py:575-588 | Each result names its port; a finished task's result is exactly the fast probe's result for its attempt; a raised task gives a failure carrying the exception's message |
| Cache.RecordAll | app/devices/detection.py:566-588 | The collection loop: every selected port gets its result, and exactly the ports whose task finished are also written into the cache, leaving other cached ports as they were |
| Cache.ScanAllPortsFast | app/devices/detection.py:501-597 | While a scan runs the cache is returned unchanged. Otherwise the results cover exactly the selected ports. Finished ports are cached with their result; raised ports are reported but not cached; other cached ports are kept. Afterwards no scan is running and the scan time is updated |
| Devices.NewDevice | app/devices/base.py:107-116 | A new device is disconnected, with both flags false, no port, 115200 baud, a 1 s timeout, and an identity holding its type and the default manufacturer; its bookkeeping is consistent |
| Devices.UpdateState | app/devices/base.py:164-169 | The state and the status's state value are the new state. Both connection flags hold exactly for `CONNECTED`. Nothing else changes |
| Devices.UpdateStateLastWins | app/devices/base.py:164-169 | Only the last state update matters |
| Devices.UpdateStateOwnState | app/devices/base.py:164-169 | A consistent device is unchanged by an update to its own state |
| Devices.GetDevice | app/devices/base.py:198-200 | A device exactly for registered ids, the registered one |
| Devices.RegisterDevice | app/devices/base.py:194-196 | The id now gives the new device, replacing any earlier one; every other id reads as before |
| Devices.GetAllDevices | app/devices/base.py:202-204 | A copy with the same ids and devices as the registry |
| Devices.RemoveDevice | app/devices/base.py:206-213 | True exactly when the id was registered. Afterwards the id is absent and other ids read as before. Disconnect is called exactly when the removed device was connected |
| Devices.RegisterThenRemove | app/devices/base.py:194-213 | Registering under a fresh id and removing it restores the registry |
| Devices.RemoveTwice | app/devices/base.py:206-213 | A second removal of the same id returns False and changes nothing |
| Devices.GetConnectedDevices | app/devices/base.py:215-217 | Exactly the registered devices whose connected flag is set, unchanged |
| Devices.RegisterUpdatedConnected | app/devices/base.py:164-217 | A device registered after a state update is listed as connected exactly when the state is `CONNECTED` |
| Devices.FreshDevicesNotConnected | app/devices/base.py:215-217 | A registry of newly built devices has no connected device |
| Devices.TextLines | app/devices/base.py:78-98 | The export always starts with the five header lines. An error adds exactly one `Error:` line and hides the response. Otherwise a dict adds one `key: value` line per entry in order, a list one line per item, and a scalar one line |
| Devices.ErrorHidesResponse | app/devices/base.py:87-88 | With an error set, the response does not affect the export |
| Devices.ToText | app/devices/base.py:78-98 | For every result: the joined header lines, then, unless the body is empty, a newline and the body lines joined by newlines (the `Error:` line, the `key: value` lines, the list items or the scalar text, newlines inside them kept as they are); when no field contains a newline, splitting the text at newlines gives back its lines |
| Devices.ToTextHeader | app/devices/base.py:80-85 | Newline-free results with equal exports have the same command and success flag |
| Handlers.IsRegisteredAfterRegister | app/api/handlers/base_handler.py:160-163 | A type is registered exactly when `get` returns a handler for it; registering adds exactly that type |
| Handlers.Register | app/api/handlers/base_handler.py:124-133 | The type maps to the new class, replacing an earlier one, and other types are unchanged. A new type is appended to the type order. Cached instances are untouched. Validity is preserved |
| Handlers.AppRegistryTypes | app/api/handlers/atlas3_handler.py:300 | After both handler modules register, the registry is valid, lists `atlas3` then `hydra`, and holds no instance |
| Handlers.Get | app/api/handlers/base_handler.py:135-153 | Nothing exactly for an unregistered type. A cached instance is returned as is. Otherwise a new instance of the registered class is created and cached. Validity, including distinct instance identities, is preserved |
| Handlers.GetTwice | app/api/handlers/base_handler.py:150-153 | A second `get` returns the same instance and changes nothing |
| Handlers.GetDistinctInstances | app/api/handlers/base_handler.py:150-153 | Different types never share an instance |
| Handlers.RegisterKeepsCachedInstance | app/api/handlers/base_handler.py:133-153 | Re-registering a type whose instance is cached does not change what `get` returns |
| Handlers.RegisterThenGet | app/api/handlers/base_handler.py:133-151 | A type registered before its first `get` is instantiated from the newly registered class |
| Handlers.GetAllTypes | app/api/handlers/base_handler.py:155-158 | In a valid registry: exactly the registered types, each once |
| Handlers.RegisterAllTypes | app/api/handlers/base_handler.py:133-158 | Registering appends a type the first time only, so the list is in first-registration order |
| Handlers.GetHandler | app/api/handlers/base_handler.py:166-176 | Exactly `get`: the same handler and the same registry afterwards, so nothing for an unregistered type, the cached instance when there is one, and otherwise a new instance of the registered class, which is cached |

## Left out

- Serial I/O (opening the port, buffers, sleeps, reading until a deadline, UTF-8/Latin-1 decoding). It is replaced by the `Attempt` outcome of each exchange. Timeouts, baud rate and command bytes are therefore not used by the probe.
- Regular expressions. `re.search` with `IGNORECASE | MULTILINE` is the `search` parameter, so the concrete patterns of the default catalogue are not interpreted. The `re.error`/`IndexError` fallback appears as `search` returning nothing.
- Detector.ExtractField: a pattern whose group 1 takes no part in the match makes `match.group(1).strip()` raise `AttributeError`, which `_extract_field` does not catch. The model has no such case, because `search` yields either a group text or nothing.
- `Text.Upper`, `Text.Lower`: case mapping covers ASCII letters only, not Python's full Unicode `upper`/`lower`.
- `Sanitize.FilterChars`: `str.isprintable` is approximated. Whitespace other than the space is excluded, together with the C0/C1 controls, DEL, the Unicode format characters (category Cf, as of Unicode 15, listed in the module), and private-use characters. Other non-printable code points, chiefly unassigned ones, are kept.
- Detector.SendVerCommand: the retry loop is proved for any sanitiser, and `detect` instantiates it with `CleanResponse`. The 0.5 s pause between attempts is left out.
- Loading and saving the signature JSON file, the singletons (`get_detector`, `DeviceManager.__new__`, `DetectionCache.__new__`), and the locks. The catalogue is a value and each registry is passed explicitly.
- Threads. `start_background_scan` and the thread pool of `scan_all_ports_fast` are left out: tasks are processed one by one, and a port's outcome depends only on the port, so completion order does not matter. An exception from port enumeration itself is not modelled: the `finally` block resets the in-progress flag and the exception then propagates to the caller of `scan_all_ports_fast`.
- Cache.ScanAllPortsFast: the debug logging of the filtered scan formats `pid` with `:04X` whenever `vid` is set (app/devices/detection.py:544-554). A port that reports a vendor ID without a product ID would make that logging raise, and the scan would end with the exception. The model has no logging and so no such failure.
- `is_scan_in_progress` and `get_last_scan_time` are field reads of `CacheState`.
- Timestamps and floating-point values. The scan time is the `now` parameter. `CommandResult.timestamp` and the two-decimal execution time are given as the text the export prints.
- `DeviceInfo.extra`, `DeviceStatus` dictionaries (temperatures, link status, error counters, extra), `to_dict`/`to_json` of base.py, and the abstract device operations (connect, disconnect, get_sysinfo, send_command, …). Their behaviour lives in device-specific modules that are not part of this model. `Devices.RemoveDevice` records whether `disconnect` would be called rather than calling it.
- Devices in the manager are references in Python, so a state change is visible through the registry at once. The model shows that by re-registering the updated device value.
- The Atlas3 and HYDRA device drivers and API handlers, the routes and the websocket layer. Of the handler modules, only their registration calls are modelled (`Handlers.AppRegistry`).

=== FILE: cache.dfy ===
/** The detection cache and the fast port scan (`DetectionCache` in
    app/devices/detection.py): which ports a scan probes, what it returns, and
    what it leaves in the cache. */
module Cache {
  import opened Common
  import opened Signatures
  import opened Sanitize
  import opened Detector

  /** The cache's state: the last result per port, whether a scan is running,
      and when the last scan finished (seconds since the epoch; 0 before any). */
  datatype CacheState = CacheState(
    cache: map<string, DetectionResult>,
    scanInProgress: bool,
    lastScanTime: real)

  /** `get_cached_results`: a copy of every cached result. */
  function GetCachedResults(st: CacheState): (r: map<string, DetectionResult>)
    ensures r.Keys == st.cache.Keys
    ensures forall p | p in r :: r[p] == st.cache[p]
  {
    st.cache
  }

  /** `get_cached_result`: the cached result for one port, if any. */
  function GetCachedResult(st: CacheState, comPort: string): (r: Option<DetectionResult>)
    ensures r.Some? <==> comPort in st.cache
    ensures r.Some? ==> r.value == st.cache[comPort]
  {
    if comPort in st.cache then Some(st.cache[comPort]) else None
  }

  /** `invalidate`: with a non-empty port name, forget that port only; with no
      port (or an empty name) forget everything. */
  function Invalidate(st: CacheState, comPort: Option<string>): (st': CacheState)
    ensures st'.scanInProgress == st.scanInProgress && st'.lastScanTime == st.lastScanTime
    ensures Truthy(comPort) ==> st'.cache.Keys == st.cache.Keys - {comPort.value}
    ensures Truthy(comPort) ==> forall p | p in st'.cache :: st'.cache[p] == st.cache[p]
    ensures !Truthy(comPort) ==> st'.cache == map[]
  {
    if Truthy(comPort) then st.(cache := st.cache - {comPort.value})
    else st.(cache := map[])
  }

  /** After invalidating a port, looking it up finds nothing, and every other
      port reads as before. */
  lemma InvalidateThenGet(st: CacheState, comPort: Option<string>, p: string)
    ensures GetCachedResult(Invalidate(st, comPort), p).None? <==>
              (!Truthy(comPort) || p == comPort.value || p !in st.cache)
    ensures Truthy(comPort) && p != comPort.value ==>
              GetCachedResult(Invalidate(st, comPort), p) == GetCachedResult(st, p)
  {
  }

  /** Invalidating twice is the same as invalidating once. */
  lemma InvalidateIdempotent(st: CacheState, comPort: Option<string>)
    ensures Invalidate(Invalidate(st, comPort), comPort) == Invalidate(st, comPort)
  {
  }

  // ---------------------------------------------------------------------------
  // The fast scan
  // ---------------------------------------------------------------------------

  /** The port is not excluded and, when filtering, is recognised by its USB identity. */
  predicate Eligible(sigs: seq<Signature>, port: PortInfo, exclude: set<string>, filter: bool) {
    port.device !in exclude && (!filter || Truthy(MatchPortInfo(sigs, port)))
  }

  /** The ports a scan probes, in enumeration order: those not excluded and,
      when `filter` is set, recognised by `match_port_info`. */
  function PortsToScan(sigs: seq<Signature>, ports: seq<PortInfo>, exclude: set<string>, filter: bool): (r: seq<string>)
    ensures |r| <= |ports|
    ensures forall d :: d in r <==> exists i | 0 <= i < |ports| :: ports[i].device == d && Eligible(sigs, ports[i], exclude, filter)
    decreases |ports|
  {
    if |ports| == 0 then []
    else
      var rest := PortsToScan(sigs, ports[1..], exclude, filter);
      assert forall i | 1 <= i < |ports| :: ports[i] == ports[1..][i - 1];
      if Eligible(sigs, ports[0], exclude, filter) then [ports[0].device] + rest else rest
  }

  /** The scan keeps the enumeration order: scanning a concatenation scans the
      two parts one after the other. */
  lemma {:induction false} PortsToScanConcat(sigs: seq<Signature>, a: seq<PortInfo>, b: seq<PortInfo>, exclude: set<string>, filter: bool)
    ensures PortsToScan(sigs, a + b, exclude, filter) == PortsToScan(sigs, a, exclude, filter) + PortsToScan(sigs, b, exclude, filter)
    decreases |a|
  {
    if |a| == 0 {
      assert a + b == b;
    } else {
      assert (a + b)[1..] == a[1..] + b;
      PortsToScanConcat(sigs, a[1..], b, exclude, filter);
    }
  }

  /** With the built-in catalogue a filtered scan probes no port at all. */
  lemma {:induction false} DefaultCatalogueScansNothing(ports: seq<PortInfo>, exclude: set<string>)
    ensures PortsToScan(DefaultCatalogue.devices, ports, exclude, true) == []
    decreases |ports|
  {
    if |ports| > 0 {
      DefaultCatalogueMatchesNoPort(ports[0]);
      DefaultCatalogueScansNothing(ports[1..], exclude);
    }
  }

  /** What one port's scan job delivered: the fast probe's attempt, or an
      exception it raised. */
  datatype TaskOutcome = Finished(attempt: Attempt) | Raised(message: string)

  /** The result recorded for a port: the fast probe's result, or a failure
      carrying the exception's message. */
  function PortResult(search: Search, cat: Catalogue, port: string, o: TaskOutcome): (r: DetectionResult)
    ensures r.comPort == Some(port)
    ensures o.Finished? ==> r == DetectFast(search, cat, port, o.attempt)
    ensures o.Raised? ==> r == Failure(port, o.message)
    ensures r.success ==> o.Finished? && Answered(CleanResponse, o.attempt)
  {
    match o
    case Finished(a) => DetectFast(search, cat, port, a)
    case Raised(msg) => Failure(port, msg)
  }

  /** `scan_all_ports_fast`. While another scan runs, the cache is returned and
      nothing changes. Otherwise every selected port is probed once: the results
      cover exactly the selected ports; a port whose task finished is cached
      with its result, one whose task raised is reported but not cached, and
      every other cached port is kept; afterwards no scan is running and the
      scan time is `now`. */
  method ScanAllPortsFast(
    st: CacheState, search: Search, cat: Catalogue, ports: seq<PortInfo>,
    exclude: set<string>, filter: bool, outcome: string -> TaskOutcome, now: real)
    returns (st': CacheState, results: map<string, DetectionResult>)
    ensures st.scanInProgress ==> st' == st && results == st.cache
    ensures !st.scanInProgress ==> !st'.scanInProgress && st'.lastScanTime == now
    ensures !st.scanInProgress ==>
              forall p :: p in results <==> p in PortsToScan(cat.devices, ports, exclude, filter)
    ensures !st.scanInProgress ==>
              forall p | p in results :: results[p] == PortResult(search, cat, p, outcome(p))
    ensures !st.scanInProgress ==>
              forall p :: p in st'.cache <==> p in st.cache || (p in results && outcome(p).Finished?)
    ensures !st.scanInProgress ==>
              forall p | p in st'.cache ::
                st'.cache[p] == if p in results && outcome(p).Finished? then results[p] else st.cache[p]
  {
    if st.scanInProgress {
      return st, st.cache;
    }
    var toScan := PortsToScan(cat.devices, ports, exclude, filter);
    var cache;
    cache, results := RecordAll(toScan, st.cache,
                                p => PortResult(search, cat, p, outcome(p)),
                                p => outcome(p).Finished?);
    st' := CacheState(cache, false, now);
  }

  /** The collection loop of the scan, for any per-port result: every port gets
      its result, and the ports for which `keep` holds are also written into the
      cache, leaving every other cached port as it was. */
  method RecordAll(
    ports: seq<string>, cache0: map<string, DetectionResult>,
    result: string -> DetectionResult, keep: string -> bool)
    returns (cache: map<string, DetectionResult>, results: map<string, DetectionResult>)
    ensures forall p :: p in results <==> p in ports
    ensures forall p | p in results :: results[p] == result(p)
    ensures forall p :: p in cache <==> p in cache0 || (p in results && keep(p))
    ensures forall p | p in cache :: cache[p] == if p in results && keep(p) then results[p] else cache0[p]
  {
    cache := cache0;
    results := map[];
    var i := 0;
    while i < |ports|
      invariant 0 <= i <= |ports|
      invariant forall p :: p in results <==> p in ports[..i]
      invariant forall p | p in results :: results[p] == result(p)
      invariant forall p :: p in cache <==> p in cache0 || (p in results && keep(p))
      invariant forall p | p in cache :: cache[p] == if p in results && keep(p) then results[p] else cache0[p]
    {
      var port := ports[i];
      var r := result(port);
      results := results[port := r];
      if keep(port) {
        cache := cache[port := r];
      }
      assert ports[..i + 1] == ports[..i] + [port];
      i := i + 1;
    }
    assert ports[..i] == ports;
  }
}

=== FILE: common.dfy ===
/** Small shared vocabulary: an optional value and first-match search over a sequence. */
module Common {

  /** Python's `Optional[T]`: either `None` or a present value. */
  datatype Option<+T> = None | Some(value: T) {

    /** The present value, or `default` when absent (`dict.get(key, default)` style). */
    function GetOr(default: T): T {
      match this
      case Some(v) => v
      case None => default
    }
  }

  /** Python truthiness of an optional string: present and non-empty. */
  predicate Truthy(o: Option<string>) {
    o.Some? && o.value != ""
  }

  /** The index of the first element of `xs` satisfying `p`, scanning front to back
      and stopping at the first hit (the shape of a `for ... : if ...: return` loop). */
  function FirstIndex<T>(xs: seq<T>, p: T -> bool): (r: Option<nat>)
    ensures r.Some? ==> r.value < |xs| && p(xs[r.value])
    ensures r.Some? ==> forall j | 0 <= j < r.value :: !p(xs[j])
    ensures r.None? <==> forall j | 0 <= j < |xs| :: !p(xs[j])
  {
    if |xs| == 0 then None
    else if p(xs[0]) then Some(0)
    else
      match FirstIndex(xs[1..], p)
      case None => None
      case Some(i) => Some(i + 1)
  }

  /** Concatenation is associative. Proved on its own, away from any other
      facts, because inside a larger proof the element-wise argument it needs
      is expensive for the solver. */
  lemma AppendAssoc<T>(x: seq<T>, y: seq<T>, z: seq<T>)
    ensures x + (y + z) == (x + y) + z
  {
  }
}

=== FILE: detector.dfy ===
/** Device identification (`DeviceDetector` in app/devices/detection.py): field
    extraction from a sanitised response, the per-signature two-tier model match,
    the retrying probe, and the single-attempt probe used by the port scan. */
module Detector {
  import opened Common
  import opened Text
  import opened Signatures
  import opened Sanitize

  /** `re.search(pattern, text, re.IGNORECASE | re.MULTILINE)` followed by
      `.group(1)`: the first capture group of the first match, or `None` when
      nothing matches or the pattern is rejected. */
  type Search = (string, string) -> Option<string>

  /** `DetectionResult`: the outcome of one identification attempt. */
  datatype DetectionResult = DetectionResult(
    success: bool,
    deviceType: Option<string>,
    model: Option<string>,
    serialNumber: Option<string>,
    firmwareVersion: Option<string>,
    comPort: Option<string>,
    rawResponse: Option<string>,
    error: Option<string>)

  const NoResponseError: string := "No response from device"
  const UnknownDeviceError: string := "Unknown device type"
  const EmptyResponseError: string := "Empty response"
  const SerialErrorPrefix: string := "Serial error: "

  /** A failed result for `comPort` carrying only an error message. */
  function Failure(comPort: string, error: string): DetectionResult {
    DetectionResult(false, None, None, None, None, Some(comPort), None, Some(error))
  }

  // ---------------------------------------------------------------------------
  // The serialised form
  // ---------------------------------------------------------------------------

  /** A value of the dictionary `to_dict` returns. */
  datatype DictValue = BoolValue(b: bool) | TextValue(text: Option<string>)

  const DictKeys: seq<string> :=
    ["success", "device_type", "model", "serial_number", "firmware_version", "com_port", "error"]

  /** `to_dict`: every field except the raw response, in declaration order. */
  function ToDict(r: DetectionResult): (d: seq<(string, DictValue)>)
    ensures |d| == |DictKeys|
    ensures forall i | 0 <= i < |d| :: d[i].0 == DictKeys[i]
  {
    [("success", BoolValue(r.success)),
     ("device_type", TextValue(r.deviceType)),
     ("model", TextValue(r.model)),
     ("serial_number", TextValue(r.serialNumber)),
     ("firmware_version", TextValue(r.firmwareVersion)),
     ("com_port", TextValue(r.comPort)),
     ("error", TextValue(r.error))]
  }

  /** Reads a dictionary in the serialised form back into a result (with no raw
      response, which the form does not carry). */
  function FromDict(d: seq<(string, DictValue)>): Option<DetectionResult> {
    if |d| != |DictKeys| || d[0].1.BoolValue? == false then None
    else if exists i | 1 <= i < |d| :: d[i].1.BoolValue? then None
    else
      Some(DetectionResult(
        d[0].1.b, d[1].1.text, d[2].1.text, d[3].1.text, d[4].1.text, d[5].1.text, None, d[6].1.text))
  }

  /** The serialised form loses exactly the raw response. */
  lemma ToDictRoundTrip(r: DetectionResult)
    ensures FromDict(ToDict(r)) == Some(r.(rawResponse := None))
  {
  }

  /** Two results that differ only in the raw response serialise identically. */
  lemma ToDictOmitsRawResponse(r: DetectionResult, raw: Option<string>)
    ensures ToDict(r.(rawResponse := raw)) == ToDict(r)
  {
  }

  // ---------------------------------------------------------------------------
  // Field extraction
  // ---------------------------------------------------------------------------

  /** The characters `_extract_field` strips from the end of a value:
      the box-drawing verticals ║│┃┆┇┊┋╎╏, space and tab. */
  predicate IsBoxTrailing(c: char) {
    || c == '\U{2551}' || c == '\U{2502}' || c == '\U{2503}' || c == '\U{2506}' || c == '\U{2507}'
    || c == '\U{250A}' || c == '\U{250B}' || c == '\U{254E}' || c == '\U{254F}' || c == ' ' || c == '\t'
  }

  /** `_extract_field`: `None` when the signature has no (or an empty) pattern for
      the field or the search finds nothing; otherwise the captured text,
      stripped, with trailing box-drawing characters, spaces and tabs removed, so
      it neither starts with whitespace nor ends in one of those characters. */
  function ExtractField(search: Search, response: string, sig: Signature, field: string): (r: Option<string>)
    ensures r.Some? <==>
              field in sig.responseFormat && sig.responseFormat[field] != ""
              && search(sig.responseFormat[field], response).Some?
    ensures r.Some? && r.value != "" ==> !IsSpace(r.value[0]) && !IsBoxTrailing(r.value[|r.value| - 1])
  {
    var pattern := Lookup(sig.responseFormat, field, "");
    if pattern == "" then None
    else
      match search(pattern, response)
      case None => None
      case Some(g) =>
        RStripParts(Strip(g), IsBoxTrailing);
        Some(RStrip(Strip(g), IsBoxTrailing))
  }

  /** The extracted value is the stripped capture cut before a run of trailing
      box-drawing characters, spaces and tabs. */
  lemma ExtractFieldTrims(search: Search, response: string, sig: Signature, field: string)
    requires ExtractField(search, response, sig, field).Some?
    ensures field in sig.responseFormat && search(sig.responseFormat[field], response).Some?
    ensures IsPrefix(ExtractField(search, response, sig, field).value,
                     Strip(search(sig.responseFormat[field], response).value))
    ensures forall i | |ExtractField(search, response, sig, field).value| <= i < |Strip(search(sig.responseFormat[field], response).value)| ::
              IsBoxTrailing(Strip(search(sig.responseFormat[field], response).value)[i])
  {
    RStripParts(Strip(search(sig.responseFormat[field], response).value), IsBoxTrailing);
  }

  /** A capture that is already clean is returned as it is. */
  lemma ExtractFieldClean(search: Search, response: string, sig: Signature, field: string, v: string)
    requires field in sig.responseFormat && sig.responseFormat[field] != ""
    requires search(sig.responseFormat[field], response) == Some(v)
    requires v != "" && !IsSpace(v[0]) && !IsSpace(v[|v| - 1]) && !IsBoxTrailing(v[|v| - 1])
    ensures ExtractField(search, response, sig, field) == Some(v)
  {
    StripTrimmed(v);
  }

  // ---------------------------------------------------------------------------
  // Model matching
  // ---------------------------------------------------------------------------

  /** Tier 1: a known model equals the extracted model or occurs in it, ignoring case. */
  predicate KnownHit(known: string, model: string) {
    Lower(known) == Lower(model) || Contains(Lower(model), Lower(known))
  }

  /** Tier 2: a model pattern occurs in the extracted model, ignoring case. */
  predicate PatternHit(pattern: string, model: string) {
    Contains(Lower(model), Lower(pattern))
  }

  /** The equality test of tier 1 is subsumed by its substring test, so the
      two tiers apply the same test to different lists. */
  lemma KnownHitIsPatternHit(known: string, model: string)
    ensures KnownHit(known, model) <==> PatternHit(known, model)
  {
    if Lower(known) == Lower(model) {
      ContainsSelf(Lower(model));
    }
  }

  /** Which entry of a signature accepted the model: a known model or a pattern. */
  datatype Tier = KnownModel(index: nat) | ModelPattern(index: nat)

  /** The inner loops of `_match_device` for one signature: known models first,
      then model patterns, each in list order. A known model is reported only if
      no earlier one accepts the model; a pattern only if no known model and no
      earlier pattern does; and there is no match exactly when nothing in either
      list accepts it. */
  function MatchTier(sig: Signature, model: string): (t: Option<Tier>)
    ensures t.Some? && t.value.KnownModel? ==>
              && t.value.index < |sig.knownModels|
              && KnownHit(sig.knownModels[t.value.index], model)
              && forall j | 0 <= j < t.value.index :: !KnownHit(sig.knownModels[j], model)
    ensures t.Some? && t.value.ModelPattern? ==>
              && (forall j | 0 <= j < |sig.knownModels| :: !KnownHit(sig.knownModels[j], model))
              && t.value.index < |sig.modelPatterns|
              && PatternHit(sig.modelPatterns[t.value.index], model)
              && forall j | 0 <= j < t.value.index :: !PatternHit(sig.modelPatterns[j], model)
    ensures t.None? <==>
              && (forall j | 0 <= j < |sig.knownModels| :: !KnownHit(sig.knownModels[j], model))
              && (forall j | 0 <= j < |sig.modelPatterns| :: !PatternHit(sig.modelPatterns[j], model))
  {
    var known := (k: string) => KnownHit(k, model);
    var pattern := (p: string) => PatternHit(p, model);
    match FirstIndex(sig.knownModels, known)
    case Some(i) => Some(KnownModel(i))
    case None =>
      match FirstIndex(sig.modelPatterns, pattern)
      case Some(i) => Some(ModelPattern(i))
      case None => None
  }

  /** One iteration of the outer loop of `_match_device`: the signature's model
      pattern must yield a non-empty model, which one of its tiers must accept. */
  function SignatureMatch(search: Search, sig: Signature, response: string): Option<Tier> {
    var model := ExtractField(search, response, sig, ModelField);
    if !Truthy(model) then None else MatchTier(sig, model.value)
  }

  /** The successful result for a signature that matched: its device type, the
      model text extracted from the response, and the secondary fields. */
  function Detected(search: Search, sig: Signature, response: string, comPort: string): DetectionResult {
    DetectionResult(
      true,
      Some(sig.deviceType),
      ExtractField(search, response, sig, ModelField),
      ExtractField(search, response, sig, SerialField),
      ExtractField(search, response, sig, FirmwareField),
      Some(comPort),
      None,
      None)
  }

  /** Signature `i` is the first one in catalogue order that matches. */
  predicate FirstMatchAt(search: Search, sigs: seq<Signature>, response: string, i: int) {
    && 0 <= i < |sigs|
    && SignatureMatch(search, sigs[i], response).Some?
    && forall j | 0 <= j < i :: SignatureMatch(search, sigs[j], response).None?
  }

  /** `_match_device`: the first signature in catalogue order that matches decides
      the result, which carries the extracted (not the catalogue) model string;
      when none matches the result is the "Unknown device type" failure. */
  function MatchDevice(search: Search, sigs: seq<Signature>, response: string, comPort: string): (r: DetectionResult)
    ensures r.comPort == Some(comPort) && r.rawResponse.None?
    ensures !r.success <==> forall i | 0 <= i < |sigs| :: SignatureMatch(search, sigs[i], response).None?
    ensures !r.success ==> r == Failure(comPort, UnknownDeviceError)
    ensures r.success ==> exists i :: FirstMatchAt(search, sigs, response, i)
                                       && r == Detected(search, sigs[i], response, comPort)
    ensures r.success ==> Truthy(r.model) && r.error.None?
  {
    var matches := (sig: Signature) => SignatureMatch(search, sig, response).Some?;
    match FirstIndex(sigs, matches)
    case None => Failure(comPort, UnknownDeviceError)
    case Some(i) =>
      assert FirstMatchAt(search, sigs, response, i);
      Detected(search, sigs[i], response, comPort)
  }

  /** A response whose model field equals (in any case) a known model of the
      first signature that yields a model is identified as that device, with the
      extracted text as its model. */
  lemma KnownModelIdentified(search: Search, sigs: seq<Signature>, response: string, comPort: string, i: nat, k: nat)
    requires i < |sigs| && k < |sigs[i].knownModels|
    requires forall j | 0 <= j < i :: SignatureMatch(search, sigs[j], response).None?
    requires Truthy(ExtractField(search, response, sigs[i], ModelField))
    requires Lower(sigs[i].knownModels[k]) == Lower(ExtractField(search, response, sigs[i], ModelField).value)
    ensures MatchDevice(search, sigs, response, comPort).success
    ensures MatchDevice(search, sigs, response, comPort).deviceType == Some(sigs[i].deviceType)
    ensures MatchDevice(search, sigs, response, comPort).model == ExtractField(search, response, sigs[i], ModelField)
  {
    var model := ExtractField(search, response, sigs[i], ModelField).value;
    assert KnownHit(sigs[i].knownModels[k], model);
    assert SignatureMatch(search, sigs[i], response).Some?;
    FirstMatchDecides(search, sigs, response, comPort, i);
  }

  /** The signature's model field is present and accepted by one of its known
      models (`known`) or by one of its patterns. */
  predicate TierHit(search: Search, sig: Signature, response: string, known: bool) {
    var model := ExtractField(search, response, sig, ModelField);
    && Truthy(model)
    && if known then exists j | 0 <= j < |sig.knownModels| :: KnownHit(sig.knownModels[j], model.value)
       else exists j | 0 <= j < |sig.modelPatterns| :: PatternHit(sig.modelPatterns[j], model.value)
  }

  /** The reading of the two tiers in which tier 2 is consulted only after tier 1
      has failed for every signature. */
  function MatchTwoPass(search: Search, sigs: seq<Signature>, response: string, comPort: string): DetectionResult {
    var tier1 := FirstIndex(sigs, (sig: Signature) => TierHit(search, sig, response, true));
    var tier2 := FirstIndex(sigs, (sig: Signature) => TierHit(search, sig, response, false));
    if tier1.Some? then Detected(search, sigs[tier1.value], response, comPort)
    else if tier2.Some? then Detected(search, sigs[tier2.value], response, comPort)
    else Failure(comPort, UnknownDeviceError)
  }

  /** The response of the example below, and the model text captured from it. */
  const ExampleModel: string := "PCI6-AD-X16"
  const ExampleFormat: map<string, string> := map[ModelField := "Model: (\\S+)"]
  const ExamplePatternOnly: Signature := Signature("generic", "", "", [], ["PCI6"], map[], ExampleFormat)
  const ExampleKnown: Signature := Signature("atlas3", "", "", [ExampleModel], [], map[], ExampleFormat)

  lemma ExampleExtraction(search: Search, response: string, sig: Signature)
    requires sig.responseFormat == ExampleFormat
    requires search(ExampleFormat[ModelField], response) == Some(ExampleModel)
    ensures ExtractField(search, response, sig, ModelField) == Some(ExampleModel)
  {
    ExtractFieldClean(search, response, sig, ModelField, ExampleModel);
  }

  lemma ExamplePatternHit()
    ensures PatternHit("PCI6", ExampleModel)
  {
    assert Lower("PCI6") == "pci6";
    assert Lower(ExampleModel) == "pci6-ad-x16";
    assert OccursAt("pci6-ad-x16", "pci6", 0);
    OccursAtContains("pci6-ad-x16", "pci6", 0);
  }

  /** Whichever signature is the first in catalogue order to match decides the
      result, whatever any later signature would accept. */
  lemma FirstMatchDecides(search: Search, sigs: seq<Signature>, response: string, comPort: string, i: nat)
    requires i < |sigs| && SignatureMatch(search, sigs[i], response).Some?
    requires forall j | 0 <= j < i :: SignatureMatch(search, sigs[j], response).None?
    ensures MatchDevice(search, sigs, response, comPort) == Detected(search, sigs[i], response, comPort)
    ensures MatchDevice(search, sigs, response, comPort).deviceType == Some(sigs[i].deviceType)
  {
    assert FirstMatchAt(search, sigs, response, i);
    var r := MatchDevice(search, sigs, response, comPort);
    var i' :| FirstMatchAt(search, sigs, response, i') && r == Detected(search, sigs[i'], response, comPort);
    assert i' == i;
  }

  /** The two-pass reading takes the second of two signatures when only the
      second one's known models accept. */
  lemma TwoPassPicksKnown(search: Search, a: Signature, b: Signature, response: string, comPort: string)
    requires !TierHit(search, a, response, true) && TierHit(search, b, response, true)
    ensures MatchTwoPass(search, [a, b], response, comPort).deviceType == Some(b.deviceType)
  {
    var sigs := [a, b];
    var tier1 := FirstIndex(sigs, (sig: Signature) => TierHit(search, sig, response, true));
    assert sigs[0] == a && sigs[1] == b;
    assert tier1 == Some(1);
  }

  /** The two readings differ: with a pattern-only signature listed before a
      signature that knows the exact model, matching per signature picks the
      first, the two-pass reading the second. */
  lemma InterleavedDiffersFromTwoPass(search: Search, response: string)
    requires search(ExampleFormat[ModelField], response) == Some(ExampleModel)
    ensures MatchDevice(search, [ExamplePatternOnly, ExampleKnown], response, "COM3").deviceType == Some("generic")
    ensures MatchTwoPass(search, [ExamplePatternOnly, ExampleKnown], response, "COM3").deviceType == Some("atlas3")
  {
    ExampleExtraction(search, response, ExamplePatternOnly);
    ExampleExtraction(search, response, ExampleKnown);
    assert SignatureMatch(search, ExamplePatternOnly, response).Some? by {
      ExamplePatternHit();
      assert PatternHit(ExamplePatternOnly.modelPatterns[0], ExampleModel);
    }
    FirstMatchDecides(search, [ExamplePatternOnly, ExampleKnown], response, "COM3", 0);
    assert TierHit(search, ExampleKnown, response, true) by {
      assert KnownHit(ExampleKnown.knownModels[0], ExampleModel);
    }
    TwoPassPicksKnown(search, ExamplePatternOnly, ExampleKnown, response, "COM3");
  }

  // ---------------------------------------------------------------------------
  // Probing
  // ---------------------------------------------------------------------------

  /** What one serial attempt produced: decoded text, nothing at all, a serial
      error or any other error. */
  datatype Attempt =
    | Bytes(text: string)
    | NoBytes
    | SerialError(message: string)
    | OtherError(message: string)

  /** A response sanitiser; the probes use `CleanResponse`. The retry policy
      does not depend on what the sanitiser does. */
  type Sanitiser = string -> string

  /** The sanitised text of an attempt; empty when it produced no text. */
  function Answer(clean: Sanitiser, a: Attempt): string {
    if a.Bytes? then clean(a.text) else ""
  }

  /** The attempt produced text that is non-empty once sanitised. */
  predicate Answered(clean: Sanitiser, a: Attempt) {
    Answer(clean, a) != ""
  }

  /** The retry policy of `_send_ver_command` as a recursive definition: attempts
      `k`, `k + 1`, ... below `n`, stopping at the first answer or the first
      non-serial error. */
  function FirstResponse(attempt: nat -> Attempt, clean: Sanitiser, k: nat, n: int): (r: Option<string>)
    ensures r.Some? ==> r.value != ""
    decreases n - k
  {
    if k >= n then None
    else if Answered(clean, attempt(k)) then Some(Answer(clean, attempt(k)))
    else if attempt(k).OtherError? then None
    else FirstResponse(attempt, clean, k + 1, n)
  }

  function AttemptBudget(retryCount: int): nat {
    if retryCount < 0 then 0 else retryCount
  }

  /** `_send_ver_command`: at most `retryCount` attempts; returns the first
      non-empty sanitised response; a serial error or an empty answer moves on to
      the next attempt, any other error ends the loop with no response. */
  method SendVerCommand(attempt: nat -> Attempt, clean: Sanitiser, retryCount: int) returns (response: Option<string>, used: nat)
    ensures used <= AttemptBudget(retryCount)
    ensures response == FirstResponse(attempt, clean, 0, retryCount)
    ensures forall k | 0 <= k < used - 1 :: !Answered(clean, attempt(k)) && !attempt(k).OtherError?
    ensures response.Some? ==> used >= 1 && response.value == Answer(clean, attempt(used - 1))
    ensures response.None? ==> used == AttemptBudget(retryCount) || (used >= 1 && attempt(used - 1).OtherError?)
    ensures response.None? ==> used >= 1 ==> !Answered(clean, attempt(used - 1))
  {
    used := 0;
    while used < retryCount
      invariant used <= AttemptBudget(retryCount)
      invariant forall k | 0 <= k < used :: !Answered(clean, attempt(k)) && !attempt(k).OtherError?
      invariant FirstResponse(attempt, clean, used, retryCount) == FirstResponse(attempt, clean, 0, retryCount)
      decreases retryCount - used
    {
      var a := attempt(used);
      var answer := Answer(clean, a);
      used := used + 1;
      if answer != "" {
        return Some(answer), used;
      }
      if a.OtherError? {
        return None, used;
      }
    }
    response := None;
  }

  /** The number of attempts `detect` allows under a catalogue's settings. */
  function RetryCount(cat: Catalogue): int {
    ResolveSettings(GetSettings(cat)).retryCount
  }

  /** `detect`: "No response from device" when no attempt answered; otherwise the
      match of the answer, carrying the answer as its raw response. */
  function Detect(search: Search, cat: Catalogue, attempt: nat -> Attempt, comPort: string): (r: DetectionResult)
    ensures r.comPort == Some(comPort)
    ensures r.rawResponse == FirstResponse(attempt, CleanResponse, 0, RetryCount(cat))
    ensures r.rawResponse.None? ==> r == Failure(comPort, NoResponseError)
    ensures r.rawResponse.Some? ==> r.rawResponse.value != ""
    ensures r.rawResponse.Some? && !r.success ==> r.error == Some(UnknownDeviceError)
    ensures r.success ==> r.deviceType.Some? && exists i | 0 <= i < |cat.devices| :: r.deviceType.value == cat.devices[i].deviceType
    ensures r.rawResponse.Some? ==>
              r == MatchDevice(search, cat.devices, r.rawResponse.value, comPort).(rawResponse := r.rawResponse)
  {
    match FirstResponse(attempt, CleanResponse, 0, RetryCount(cat))
    case None => Failure(comPort, NoResponseError)
    case Some(response) =>
      var m := MatchDevice(search, cat.devices, response, comPort);
      m.(rawResponse := Some(response))
  }

  /** `detect` over the retry loop itself, reporting how many attempts it made. */
  method DetectWithAttempts(search: Search, cat: Catalogue, attempt: nat -> Attempt, comPort: string)
    returns (r: DetectionResult, used: nat)
    ensures used <= AttemptBudget(RetryCount(cat))
    ensures r == Detect(search, cat, attempt, comPort)
  {
    var response;
    response, used := SendVerCommand(attempt, CleanResponse, RetryCount(cat));
    if response.None? {
      r := Failure(comPort, NoResponseError);
    } else {
      r := MatchDevice(search, cat.devices, response.value, comPort).(rawResponse := response);
    }
  }

  /** No attempt is made when the settings allow none. */
  lemma NoAttemptsNoResponse(search: Search, cat: Catalogue, attempt: nat -> Attempt, comPort: string)
    requires RetryCount(cat) <= 0
    ensures Detect(search, cat, attempt, comPort) == Failure(comPort, NoResponseError)
  {
  }

  /** `_detect_fast`: a single attempt, mapped to a result without retrying. */
  function DetectFast(search: Search, cat: Catalogue, comPort: string, a: Attempt): (r: DetectionResult)
    ensures r.comPort == Some(comPort)
    ensures r.success ==> Answered(CleanResponse, a) && r.rawResponse == Some(Answer(CleanResponse, a))
    ensures a.NoBytes? ==> r == Failure(comPort, NoResponseError)
    ensures a.Bytes? && !Answered(CleanResponse, a) ==> r == Failure(comPort, EmptyResponseError)
    ensures a.SerialError? ==> r == Failure(comPort, SerialErrorPrefix + a.message)
    ensures a.OtherError? ==> r == Failure(comPort, a.message)
    ensures Answered(CleanResponse, a) ==>
              r == MatchDevice(search, cat.devices, Answer(CleanResponse, a), comPort).(rawResponse := Some(Answer(CleanResponse, a)))
  {
    match a
    case NoBytes => Failure(comPort, NoResponseError)
    case Bytes(t) =>
      var response := CleanResponse(t);
      if response == "" then Failure(comPort, EmptyResponseError)
      else MatchDevice(search, cat.devices, response, comPort).(rawResponse := Some(response))
    case SerialError(msg) => Failure(comPort, SerialErrorPrefix + msg)
    case OtherError(msg) => Failure(comPort, msg)
  }

  /** On an answered attempt the fast probe gives exactly what `detect` gives
      when that attempt comes first; otherwise both fail. */
  lemma FastAgreesWithDetect(search: Search, cat: Catalogue, attempt: nat -> Attempt, comPort: string)
    requires RetryCount(cat) >= 1
    ensures Answered(CleanResponse, attempt(0)) ==> DetectFast(search, cat, comPort, attempt(0)) == Detect(search, cat, attempt, comPort)
    ensures !DetectFast(search, cat, comPort, attempt(0)).success && attempt(0).OtherError? ==>
              !Detect(search, cat, attempt, comPort).success
  {
  }
}

=== FILE: devices.dfy ===
/** The device abstraction layer (app/devices/base.py): device and connection
    enumerations, a device's connection bookkeeping, the device manager's
    registry, and the text export of a command result. */
module Devices {
  import opened Common
  import opened Text

  // ---------------------------------------------------------------------------
  // Enumerations
  // ---------------------------------------------------------------------------

  /** The supported device families. */
  datatype DeviceType = Atlas3 | Hydra {
    /** The enumeration's string value. */
    function Value(): string {
      match this
      case Atlas3 => "atlas3"
      case Hydra => "hydra"
    }
  }

  /** The states of a device's connection. */
  datatype ConnectionState = Disconnected | Connecting | Connected | Error {
    /** The enumeration's string value. */
    function Value(): string {
      match this
      case Disconnected => "disconnected"
      case Connecting => "connecting"
      case Connected => "connected"
      case Error => "error"
    }
  }

  // ---------------------------------------------------------------------------
  // Devices
  // ---------------------------------------------------------------------------

  /** The identity a device reports. */
  datatype DeviceInfo = DeviceInfo(
    deviceType: string,
    firmwareVersion: string,
    serialNumber: string,
    hardwareRevision: string,
    manufacturer: string)

  const DefaultManufacturer: string := "Serial Cables, LLC"

  /** The live status a device reports: whether it is connected, the state's
      string value, its port and when it was last refreshed. */
  datatype DeviceStatus = DeviceStatus(
    connected: bool,
    state: string,
    comPort: string,
    lastUpdate: string)

  /** A fresh status record: not connected, in the disconnected state. */
  const DefaultStatus: DeviceStatus := DeviceStatus(false, Disconnected.Value(), "", "")

  const DefaultBaudrate: int := 115200

  /** The part of a device the base class maintains. Timeouts are kept in
      milliseconds. */
  datatype Device = Device(
    deviceType: DeviceType,
    comPort: Option<string>,
    baudrate: int,
    timeoutMs: int,
    connectionState: ConnectionState,
    info: DeviceInfo,
    status: DeviceStatus,
    connected: bool)

  /** The connection bookkeeping agrees with itself: the status carries the
      state's value, and both connection flags say "connected" exactly in the
      connected state. */
  predicate Consistent(d: Device) {
    && d.status.state == d.connectionState.Value()
    && d.status.connected == d.connected
    && (d.connected <==> d.connectionState == Connected)
  }

  /** A newly constructed device: disconnected, with no port, the default
      baud rate and a one-second timeout, and an identity naming only its type. */
  function NewDevice(t: DeviceType): (d: Device)
    ensures d.deviceType == t && d.comPort.None?
    ensures d.connectionState == Disconnected && !d.connected && !d.status.connected
    ensures d.baudrate == DefaultBaudrate && d.timeoutMs == 1000
    ensures d.info.deviceType == t.Value() && d.info.firmwareVersion == "" && d.info.manufacturer == DefaultManufacturer
    ensures Consistent(d)
  {
    Device(t, None, DefaultBaudrate, 1000, Disconnected,
           DeviceInfo(t.Value(), "", "", "", DefaultManufacturer), DefaultStatus, false)
  }

  /** `_update_state`: the new state is recorded in both places and the two
      connection flags follow it; nothing else about the device changes. */
  function UpdateState(d: Device, s: ConnectionState): (d': Device)
    ensures d'.connectionState == s && d'.status.state == s.Value()
    ensures d'.connected == d'.status.connected == (s == Connected)
    ensures Consistent(d')
    ensures d'.deviceType == d.deviceType && d'.comPort == d.comPort && d'.baudrate == d.baudrate
    ensures d'.timeoutMs == d.timeoutMs && d'.info == d.info
    ensures d'.status.comPort == d.status.comPort && d'.status.lastUpdate == d.status.lastUpdate
  {
    var connected := s == Connected;
    d.(connectionState := s,
       status := d.status.(state := s.Value(), connected := connected),
       connected := connected)
  }

  /** Only the last state update counts. */
  lemma UpdateStateLastWins(d: Device, a: ConnectionState, b: ConnectionState)
    ensures UpdateState(UpdateState(d, a), b) == UpdateState(d, b)
  {
  }

  /** A consistent device is left as it is by updating it to its own state. */
  lemma UpdateStateOwnState(d: Device)
    requires Consistent(d)
    ensures UpdateState(d, d.connectionState) == d
  {
  }

  // ---------------------------------------------------------------------------
  // The device manager
  // ---------------------------------------------------------------------------

  /** The device manager's registry, from device id to device. */
  datatype Manager = Manager(devices: map<string, Device>)

  /** `get_device`: the device registered under `id`, if any. */
  function GetDevice(m: Manager, id: string): (r: Option<Device>)
    ensures r.Some? <==> id in m.devices
    ensures r.Some? ==> r.value == m.devices[id]
  {
    if id in m.devices then Some(m.devices[id]) else None
  }

  /** `register_device`: `id` now names `d`, replacing any earlier device. */
  function RegisterDevice(m: Manager, id: string, d: Device): (m': Manager)
    ensures m'.devices.Keys == m.devices.Keys + {id}
    ensures GetDevice(m', id) == Some(d)
    ensures forall other | other != id :: GetDevice(m', other) == GetDevice(m, other)
  {
    Manager(m.devices[id := d])
  }

  /** `get_all_devices`: a copy of the registry with the same entries. */
  function GetAllDevices(m: Manager): (r: map<string, Device>)
    ensures r.Keys == m.devices.Keys
    ensures forall id | id in r :: GetDevice(m, id) == Some(r[id])
  {
    m.devices
  }

  /** What `remove_device` did: the registry afterwards, whether the id was
      registered (its return value), and whether it disconnected the device. */
  datatype Removal = Removal(manager: Manager, removed: bool, disconnectCalled: bool)

  /** `remove_device`: drops `id` if present, disconnecting the device first
      when it was connected. */
  function RemoveDevice(m: Manager, id: string): (r: Removal)
    ensures r.removed <==> id in m.devices
    ensures r.manager.devices.Keys == m.devices.Keys - {id}
    ensures forall other | other != id :: GetDevice(r.manager, other) == GetDevice(m, other)
    ensures r.disconnectCalled <==> id in m.devices && m.devices[id].connected
  {
    if id in m.devices then
      Removal(Manager(m.devices - {id}), true, m.devices[id].connected)
    else
      Removal(m, false, false)
  }

  /** Removing a device that was just registered under a fresh id gives back
      the registry as it was. */
  lemma RegisterThenRemove(m: Manager, id: string, d: Device)
    requires id !in m.devices
    ensures RemoveDevice(RegisterDevice(m, id, d), id).manager == m
    ensures RemoveDevice(RegisterDevice(m, id, d), id).disconnectCalled == d.connected
  {
    assert RegisterDevice(m, id, d).devices - {id} == m.devices;
  }

  /** Removing an id twice: the second removal finds nothing and changes nothing. */
  lemma RemoveTwice(m: Manager, id: string)
    ensures var once := RemoveDevice(m, id).manager;
            RemoveDevice(once, id) == Removal(once, false, false)
  {
  }

  /** `get_connected_devices`: exactly the registered devices whose connection
      flag is set. */
  function GetConnectedDevices(m: Manager): (r: map<string, Device>)
    ensures forall id :: id in r <==> id in m.devices && m.devices[id].connected
    ensures forall id | id in r :: r[id] == m.devices[id]
  {
    map id | id in m.devices && m.devices[id].connected :: m.devices[id]
  }

  /** Registering a device after updating it to a state lists it among the
      connected devices exactly when that state is the connected one. */
  lemma RegisterUpdatedConnected(m: Manager, id: string, d: Device, s: ConnectionState)
    ensures id in GetConnectedDevices(RegisterDevice(m, id, UpdateState(d, s))) <==> s == Connected
  {
    var m' := RegisterDevice(m, id, UpdateState(d, s));
    assert GetDevice(m', id) == Some(UpdateState(d, s));
  }

  /** No device is connected in a registry of freshly constructed devices. */
  lemma FreshDevicesNotConnected(m: Manager)
    requires forall id | id in m.devices :: m.devices[id] == NewDevice(m.devices[id].deviceType)
    ensures GetConnectedDevices(m) == map[]
  {
    assert GetConnectedDevices(m).Keys == {};
  }

  // ---------------------------------------------------------------------------
  // Command results
  // ---------------------------------------------------------------------------

  /** The payload of a command result, with every value already rendered as
      text (`str(value)`): a mapping in insertion order, a list, or one value. */
  datatype Response =
    | DictResponse(entries: seq<(string, string)>)
    | ListResponse(items: seq<string>)
    | ScalarResponse(text: string)

  /** A command result. The timestamp and the execution time (to two
      decimals) are kept as the text the export prints. */
  datatype CommandResult = CommandResult(
    success: bool,
    command: string,
    response: Response,
    error: Option<string>,
    timestamp: string,
    executionTime: string)

  /** Python's rendering of a boolean. */
  function BoolText(b: bool): string {
    if b then "True" else "False"
  }

  /** The separator line: fifty dashes. */
  function Rule(): (r: string)
    ensures |r| == 50 && forall i | 0 <= i < 50 :: r[i] == '-'
  {
    seq(50, _ => '-')
  }

  /** The five lines every export starts with. */
  function HeaderLines(c: CommandResult): seq<string> {
    [ "Command: " + c.command,
      "Timestamp: " + c.timestamp,
      "Success: " + BoolText(c.success),
      "Execution Time: " + c.executionTime + " ms",
      Rule() ]
  }

  /** One line per dictionary entry, `key: value`, in order. */
  function EntryLines(entries: seq<(string, string)>): (r: seq<string>)
    ensures |r| == |entries|
    ensures forall i | 0 <= i < |r| :: r[i] == entries[i].0 + ": " + entries[i].1
  {
    seq(|entries|, i requires 0 <= i < |entries| => entries[i].0 + ": " + entries[i].1)
  }

  /** The lines after the header: the error alone when there is one, otherwise
      the response. */
  function BodyLines(c: CommandResult): seq<string> {
    if Truthy(c.error) then ["Error: " + c.error.value]
    else match c.response
      case DictResponse(entries) => EntryLines(entries)
      case ListResponse(items) => items
      case ScalarResponse(text) => [text]
  }

  /** The export's lines. */
  function TextLines(c: CommandResult): (r: seq<string>)
    ensures |r| >= 5 && r[..5] == HeaderLines(c)
    ensures Truthy(c.error) ==> r == HeaderLines(c) + ["Error: " + c.error.value]
    ensures !Truthy(c.error) && c.response.DictResponse? ==>
              |r| == 5 + |c.response.entries| &&
              forall i | 0 <= i < |c.response.entries| ::
                r[5 + i] == c.response.entries[i].0 + ": " + c.response.entries[i].1
    ensures !Truthy(c.error) && c.response.ListResponse? ==> r[5..] == c.response.items
    ensures !Truthy(c.error) && c.response.ScalarResponse? ==> r == HeaderLines(c) + [c.response.text]
  {
    HeaderLines(c) + BodyLines(c)
  }

  /** No line of the export contains a newline. */
  predicate SingleLines(ls: seq<string>) {
    forall i | 0 <= i < |ls| :: '\n' !in ls[i]
  }

  /** `to_text`: the export's lines joined by newlines. It always opens with
      the header block; with an error the error line follows it, and a scalar
      response follows it as it is, newlines included. When no field holds a
      newline, splitting the text at newlines gives back exactly its lines. */
  function ToText(c: CommandResult): (r: string)
    ensures IsPrefix(Join(HeaderLines(c), '\n'), r)
    ensures |BodyLines(c)| == 0 ==> r == Join(HeaderLines(c), '\n')
    ensures |BodyLines(c)| > 0 ==> r == Join(HeaderLines(c), '\n') + "\n" + Join(BodyLines(c), '\n')
    ensures Truthy(c.error) ==> r == Join(HeaderLines(c), '\n') + "\n" + ("Error: " + c.error.value)
    ensures !Truthy(c.error) && c.response.ScalarResponse? ==>
              r == Join(HeaderLines(c), '\n') + "\n" + c.response.text
    ensures SingleLines(TextLines(c)) ==> Split(r, '\n') == TextLines(c)
  {
    ToTextShape(c);
    SplitJoinIfSingle(TextLines(c));
    Join(TextLines(c), '\n')
  }

  /** The joined export is the joined header, followed, unless the body is
      empty, by a newline and the joined body. */
  lemma ToTextShape(c: CommandResult)
    ensures IsPrefix(Join(HeaderLines(c), '\n'), Join(TextLines(c), '\n'))
    ensures |BodyLines(c)| == 0 ==> Join(TextLines(c), '\n') == Join(HeaderLines(c), '\n')
    ensures |BodyLines(c)| > 0 ==>
              Join(TextLines(c), '\n') == Join(HeaderLines(c), '\n') + "\n" + Join(BodyLines(c), '\n')
    ensures |BodyLines(c)| == 1 ==>
              Join(TextLines(c), '\n') == Join(HeaderLines(c), '\n') + "\n" + BodyLines(c)[0]
  {
    var header, body := HeaderLines(c), BodyLines(c);
    assert TextLines(c) == header + body;
    JoinPrefix(header, body, '\n');
    if |body| == 0 {
      assert header + body == header;
    } else {
      JoinAppend(header, body, '\n');
    }
  }

  /** Split gives back the lines of a newline-free export. */
  lemma SplitJoinIfSingle(ls: seq<string>)
    requires |ls| >= 1
    ensures SingleLines(ls) ==> Split(Join(ls, '\n'), '\n') == ls
  {
    if SingleLines(ls) {
      SplitJoin(ls, '\n');
    }
  }

  /** An error hides the response: two results that differ only in their
      response export the same text. */
  lemma ErrorHidesResponse(c: CommandResult, response: Response)
    requires Truthy(c.error)
    ensures ToText(c.(response := response)) == ToText(c)
  {
  }

  /** An export's header fixes the command and the success flag: results with
      the same newline-free export agree on both. */
  lemma ToTextHeader(c: CommandResult, d: CommandResult)
    requires SingleLines(TextLines(c)) && SingleLines(TextLines(d))
    requires ToText(c) == ToText(d)
    ensures c.command == d.command && c.success == d.success
  {
    assert TextLines(c)[0] == TextLines(d)[0];
    assert TextLines(c)[2] == TextLines(d)[2];
    assert ("Command: " + c.command)[9..] == c.command;
    assert ("Command: " + d.command)[9..] == d.command;
    assert ("Success: " + BoolText(c.success))[9..] == BoolText(c.success);
  }
}

=== FILE: handlers.dfy ===
/** The handler registry (app/api/handlers/base_handler.py): device type names
    mapped to handler classes, with one lazily created handler instance per
    type. */
module Handlers {
  import opened Common

  /** A handler class, known by its name. */
  type HandlerClass = string

  /** A handler instance: the class it was created from and an identity that
      tells instances apart. */
  datatype Handler = Handler(cls: HandlerClass, id: nat)

  /** The registry's class-level state: the registered classes, the types in
      first-registration order (the key order of `_handlers`), the cached
      instances, and the identity the next new instance receives. */
  datatype Registry = Registry(
    handlers: map<string, HandlerClass>,
    order: seq<string>,
    instances: map<string, Handler>,
    nextId: nat)

  const EmptyRegistry: Registry := Registry(map[], [], map[], 0)

  /** Each type appears once in `order`, exactly the registered types do, only
      registered types have instances, and instances have distinct identities
      below `nextId`. */
  predicate Valid(reg: Registry) {
    && (forall i, j | 0 <= i < j < |reg.order| :: reg.order[i] != reg.order[j])
    && (forall t | t in reg.order :: t in reg.handlers)
    && (forall t | t in reg.handlers :: t in reg.order)
    && (forall t | t in reg.instances :: t in reg.handlers && reg.instances[t].id < reg.nextId)
    && (forall t, u | t in reg.instances && u in reg.instances && t != u ::
          reg.instances[t].id != reg.instances[u].id)
  }

  lemma EmptyRegistryValid()
    ensures Valid(EmptyRegistry)
  {
  }

  /** The registry once the application's handler modules are imported: the
      Atlas3 handler registers first, then the HYDRA handler. */
  const AppRegistry: Registry :=
    Register(Register(EmptyRegistry, "atlas3", "Atlas3Handler"), "hydra", "HydraHandler")

  /** The application's registry is valid and lists exactly the two device
      families, Atlas3 first, with no instance created yet. */
  lemma AppRegistryTypes()
    ensures Valid(AppRegistry)
    ensures GetAllTypes(AppRegistry) == ["atlas3", "hydra"]
    ensures AppRegistry.instances == map[]
  {
    EmptyRegistryValid();
  }

  /** `is_registered`. */
  predicate IsRegistered(reg: Registry, t: string) {
    t in reg.handlers
  }

  /** A type is registered exactly when `get` hands out a handler for it, and
      registering a type adds that type and no other. */
  lemma IsRegisteredAfterRegister(reg: Registry, t: string, c: HandlerClass, u: string)
    ensures IsRegistered(reg, u) <==> Get(reg, u).handler.Some?
    ensures IsRegistered(Register(reg, t, c), u) <==> u == t || IsRegistered(reg, u)
  {
  }

  /** `register`: `t` now maps to `c`, replacing an earlier class; a new type
      joins the end of the type order. Cached instances are left alone. */
  function Register(reg: Registry, t: string, c: HandlerClass): (reg': Registry)
    ensures reg'.handlers.Keys == reg.handlers.Keys + {t} && reg'.handlers[t] == c
    ensures forall u | u in reg.handlers && u != t :: reg'.handlers[u] == reg.handlers[u]
    ensures reg'.order == if t in reg.handlers then reg.order else reg.order + [t]
    ensures reg'.instances == reg.instances && reg'.nextId == reg.nextId
    ensures Valid(reg) ==> Valid(reg')
  {
    Registry(reg.handlers[t := c],
             if t in reg.handlers then reg.order else reg.order + [t],
             reg.instances, reg.nextId)
  }

  /** The outcome of `get`: the registry afterwards (an instance may have been
      cached) and the handler, if the type is registered. */
  datatype Lookup = Lookup(registry: Registry, handler: Option<Handler>)

  /** `get`: nothing for an unregistered type; otherwise the cached instance,
      creating and caching one of the registered class on first use. */
  function Get(reg: Registry, t: string): (r: Lookup)
    ensures r.handler.None? <==> !IsRegistered(reg, t)
    ensures r.handler.None? ==> r.registry == reg
    ensures IsRegistered(reg, t) && t in reg.instances ==> r == Lookup(reg, Some(reg.instances[t]))
    ensures IsRegistered(reg, t) && t !in reg.instances ==>
              && r.handler.value.cls == reg.handlers[t]
              && r.handler.value.id == reg.nextId
              && r.registry.instances == reg.instances[t := r.handler.value]
    ensures r.registry.handlers == reg.handlers && r.registry.order == reg.order
    ensures r.handler.Some? ==> t in r.registry.instances && r.registry.instances[t] == r.handler.value
    ensures Valid(reg) ==> Valid(r.registry)
  {
    if t !in reg.handlers then Lookup(reg, None)
    else if t in reg.instances then Lookup(reg, Some(reg.instances[t]))
    else
      var h := Handler(reg.handlers[t], reg.nextId);
      Lookup(reg.(instances := reg.instances[t := h], nextId := reg.nextId + 1), Some(h))
  }

  /** A second `get` returns the same instance and changes nothing. */
  lemma GetTwice(reg: Registry, t: string)
    ensures var first := Get(reg, t);
            Get(first.registry, t) == Lookup(first.registry, first.handler)
  {
  }

  /** In a valid registry, `get` on two different types never hands out the
      same instance. */
  lemma GetDistinctInstances(reg: Registry, t: string, u: string)
    requires Valid(reg) && t != u
    requires IsRegistered(reg, t) && IsRegistered(reg, u)
    ensures var first := Get(reg, t);
            var second := Get(first.registry, u);
            first.handler.value != second.handler.value
  {
    var first := Get(reg, t);
    assert Valid(first.registry);
    assert first.registry.instances[t] == first.handler.value;
  }

  /** Re-registering a type whose instance is already cached does not change
      what `get` returns. */
  lemma RegisterKeepsCachedInstance(reg: Registry, t: string, c: HandlerClass)
    requires IsRegistered(reg, t) && t in reg.instances
    ensures Get(Register(reg, t, c), t).handler == Get(reg, t).handler
  {
  }

  /** Registering a type not yet instantiated makes the next `get` build the
      newly registered class. */
  lemma RegisterThenGet(reg: Registry, t: string, c: HandlerClass)
    requires t !in reg.instances
    ensures Get(Register(reg, t, c), t).handler.Some?
    ensures Get(Register(reg, t, c), t).handler.value.cls == c
  {
  }

  /** `get_all_types`: every registered type, each once, in first-registration
      order. */
  function GetAllTypes(reg: Registry): (r: seq<string>)
    ensures Valid(reg) ==> forall t :: t in r <==> IsRegistered(reg, t)
    ensures Valid(reg) ==> forall i, j | 0 <= i < j < |r| :: r[i] != r[j]
  {
    reg.order
  }

  /** Registering adds a type to the end of the list the first time only. */
  lemma RegisterAllTypes(reg: Registry, t: string, c: HandlerClass)
    ensures GetAllTypes(Register(reg, t, c)) ==
              if IsRegistered(reg, t) then GetAllTypes(reg) else GetAllTypes(reg) + [t]
  {
  }

  /** `get_handler`: the module-level shortcut, which answers with the
      registry's own lookup. */
  function GetHandler(reg: Registry, t: string): (r: Lookup)
    ensures r == Get(reg, t)
    ensures r.handler.None? <==> !IsRegistered(reg, t)
    ensures IsRegistered(reg, t) && t in reg.instances ==> r.handler == Some(reg.instances[t]) && r.registry == reg
    ensures IsRegistered(reg, t) && t !in reg.instances ==> r.handler.value.cls == reg.handlers[t]
    ensures r.handler.Some? ==> t in r.registry.instances && r.registry.instances[t] == r.handler.value
  {
    Get(reg, t)
  }
}

=== FILE: sanitize.dfy ===
/** The response sanitiser `DeviceDetector._clean_response` (app/devices/detection.py):
    keep printable characters and line/tab controls, turn every line ending into
    "\n", strip each line, drop empty lines, and rejoin with "\n". */
module Sanitize {
  import opened Common
  import opened Text

  /** Unicode format characters (category Cf) Python's `isprintable` rejects. */
  const FormatChars: set<char> := {
    '\U{00AD}', '\U{0600}', '\U{0601}', '\U{0602}', '\U{0603}', '\U{0604}', '\U{0605}',
    '\U{061C}', '\U{06DD}', '\U{070F}', '\U{0890}', '\U{0891}', '\U{08E2}', '\U{180E}',
    '\U{200B}', '\U{200C}', '\U{200D}', '\U{200E}', '\U{200F}',
    '\U{202A}', '\U{202B}', '\U{202C}', '\U{202D}', '\U{202E}',
    '\U{2060}', '\U{2061}', '\U{2062}', '\U{2063}', '\U{2064}',
    '\U{2066}', '\U{2067}', '\U{2068}', '\U{2069}', '\U{206A}', '\U{206B}',
    '\U{206C}', '\U{206D}', '\U{206E}', '\U{206F}',
    '\U{FEFF}', '\U{FFF9}', '\U{FFFA}', '\U{FFFB}', '\U{110BD}', '\U{110CD}'
  }

  /** The runs of format characters outside the list above, the tag block
      (whose unassigned code points are not printable either) included. */
  predicate InFormatRun(c: char) {
    || '\U{13430}' <= c <= '\U{1343F}'
    || '\U{1BCA0}' <= c <= '\U{1BCA3}'
    || '\U{1D173}' <= c <= '\U{1D17A}'
    || '\U{E0000}' <= c <= '\U{E007F}'
  }

  /** `c.isprintable()`: not a control, format or private-use character, and
      not a separator other than the plain space. */
  predicate IsPrintable(c: char) {
    && ' ' <= c
    && !('\U{007F}' <= c <= '\U{009F}')
    && (c == ' ' || !IsSpace(c))
    && c !in FormatChars
    && !InFormatRun(c)
    && !('\U{E000}' <= c <= '\U{F8FF}')
    && c < '\U{F0000}'
  }

  /** The characters the first filtering pass keeps. */
  predicate Kept(c: char) {
    IsPrintable(c) || c == '\r' || c == '\n' || c == '\t'
  }

  /** The characters a sanitised response may contain. */
  predicate CleanChar(c: char) {
    IsPrintable(c) || c == '\n' || c == '\t'
  }

  /** A line as the sanitiser emits it: non-empty, no whitespace at either end. */
  predicate Trimmed(line: string) {
    line != "" && !IsSpace(line[0]) && !IsSpace(line[|line| - 1])
  }

  /** The first pass: every character that is printable or one of carriage
      return, newline and tab is kept, in order, and every other is dropped. */
  function FilterChars(s: string): (r: string)
    ensures All(r, Kept)
    ensures |r| <= |s|
    decreases |s|
  {
    if |s| == 0 then []
    else (if Kept(s[0]) then [s[0]] else []) + FilterChars(s[1..])
  }

  /** Filtering works character by character: a single character is kept
      exactly when it is printable or a line or tab control ... */
  lemma FilterCharsChar(c: char)
    ensures FilterChars([c]) == if Kept(c) then [c] else []
  {
    assert [c][1..] == [];
  }

  /** A text of kept characters only passes through unchanged. */
  lemma {:induction false} FilterCharsKept(s: string)
    requires All(s, Kept)
    ensures FilterChars(s) == s
    decreases |s|
  {
    if |s| > 0 {
      FilterCharsKept(s[1..]);
      assert s == [s[0]] + s[1..];
    }
  }

  /** ... and filtering a concatenation filters the parts independently. */
  lemma {:induction false} FilterCharsConcat(a: string, b: string)
    ensures FilterChars(a + b) == FilterChars(a) + FilterChars(b)
    decreases |a|
  {
    var ab := a + b;
    if |a| == 0 {
      assert ab == b;
    } else {
      assert ab[0] == a[0];
      assert ab[1..] == a[1..] + b;
      FilterCharsConcat(a[1..], b);
      var head := if Kept(a[0]) then [a[0]] else [];
      assert FilterChars(ab) == head + FilterChars(ab[1..]);
      assert FilterChars(a) == head + FilterChars(a[1..]);
    }
  }

  /** The second pass: each carriage return immediately followed by a newline
      becomes a single newline, scanning from the left; every other character,
      a lone carriage return included, is copied. */
  function ReplaceCrLf(s: string): (r: string)
    ensures |r| <= |s|
    decreases |s|
  {
    if |s| >= 2 && s[0] == '\r' && s[1] == '\n' then "\n" + ReplaceCrLf(s[2..])
    else if |s| == 0 then []
    else [s[0]] + ReplaceCrLf(s[1..])
  }

  /** One step of the second pass, at a pair and at any other character. */
  lemma ReplaceCrLfStep(s: string)
    requires |s| >= 1
    ensures |s| >= 2 && s[0] == '\r' && s[1] == '\n' ==> ReplaceCrLf(s) == "\n" + ReplaceCrLf(s[2..])
    ensures !(|s| >= 2 && s[0] == '\r' && s[1] == '\n') ==> ReplaceCrLf(s) == [s[0]] + ReplaceCrLf(s[1..])
  {
  }

  /** A text cut anywhere except just after a carriage return is rewritten part
      by part: no pair straddles the cut. */
  lemma {:induction false} ReplaceCrLfConcat(a: string, b: string)
    requires |a| == 0 || a[|a| - 1] != '\r'
    ensures ReplaceCrLf(a + b) == ReplaceCrLf(a) + ReplaceCrLf(b)
    decreases |a|
  {
    var ab := a + b;
    if |a| == 0 {
      assert ab == b;
    } else {
      ReplaceCrLfStep(a);
      ReplaceCrLfStep(ab);
      if |a| >= 2 && a[0] == '\r' && a[1] == '\n' {
        var rest := a[2..];
        assert |rest| > 0 ==> rest[|rest| - 1] == a[|a| - 1];
        assert ab[2..] == rest + b;
        ReplaceCrLfConcat(rest, b);
        assert ReplaceCrLf(ab) == "\n" + (ReplaceCrLf(rest) + ReplaceCrLf(b));
        AppendAssoc("\n", ReplaceCrLf(rest), ReplaceCrLf(b));
      } else {
        var rest := a[1..];
        assert |rest| > 0 ==> rest[|rest| - 1] == a[|a| - 1];
        assert ab[0] == a[0] && (|a| >= 2 ==> ab[1] == a[1]);
        assert |a| == 1 ==> a[0] != '\r';
        assert ab[1..] == rest + b;
        ReplaceCrLfConcat(rest, b);
        assert ReplaceCrLf(ab) == [a[0]] + (ReplaceCrLf(rest) + ReplaceCrLf(b));
        AppendAssoc([a[0]], ReplaceCrLf(rest), ReplaceCrLf(b));
      }
    }
  }

  /** The second pass introduces no character the first pass would drop ... */
  lemma {:induction false} ReplaceCrLfKept(s: string)
    requires All(s, Kept)
    ensures All(ReplaceCrLf(s), Kept)
    decreases |s|
  {
    if |s| >= 2 && s[0] == '\r' && s[1] == '\n' {
      ReplaceCrLfKept(s[2..]);
    } else if |s| > 0 {
      ReplaceCrLfKept(s[1..]);
    }
  }

  /** ... and leaves a text without carriage returns unchanged. */
  lemma {:induction false} ReplaceCrLfNoCr(s: string)
    requires '\r' !in s
    ensures ReplaceCrLf(s) == s
    decreases |s|
  {
    if |s| > 0 {
      assert s[0] != '\r';
      ReplaceCrLfNoCr(s[1..]);
      assert s == [s[0]] + s[1..];
    }
  }

  /** A carriage return and newline pair becomes one newline, and a carriage
      return before anything else survives this pass. */
  lemma ReplaceCrLfPairs(b: string, c: char)
    ensures ReplaceCrLf("\r\n" + b) == "\n" + ReplaceCrLf(b)
    ensures c != '\n' ==> ReplaceCrLf(['\r', c] + b) == "\r" + ReplaceCrLf([c] + b)
  {
    assert ("\r\n" + b)[2..] == b;
    assert (['\r', c] + b)[1..] == [c] + b;
  }

  /** The third pass: every remaining carriage return becomes a newline, and
      every other character stays where it is. */
  function ReplaceCr(s: string): (r: string)
    ensures |r| == |s|
    ensures forall i | 0 <= i < |s| :: s[i] == '\r' ==> r[i] == '\n'
    ensures forall i | 0 <= i < |s| :: s[i] != '\r' ==> r[i] == s[i]
    ensures '\r' !in r
    ensures All(s, Kept) ==> All(r, CleanChar)
    ensures '\r' !in s ==> r == s
  {
    seq(|s|, i requires 0 <= i < |s| => if s[i] == '\r' then '\n' else s[i])
  }

  /** Each line is stripped of surrounding whitespace, and the lines that are
      then empty are dropped; the rest keep their order. */
  function StripLines(ls: seq<string>): (r: seq<string>)
    ensures |r| <= |ls|
    ensures forall k | 0 <= k < |r| :: Trimmed(r[k])
    decreases |ls|
  {
    if |ls| == 0 then []
    else
      var t := Strip(ls[0]);
      (if t != "" then [t] else []) + StripLines(ls[1..])
  }

  /** A single line contributes its stripped form, unless that is empty ... */
  lemma StripLinesSingle(l: string)
    ensures StripLines([l]) == if Strip(l) != "" then [Strip(l)] else []
  {
    assert [l][1..] == [];
  }

  /** ... and a list of lines is processed line by line, in order. */
  lemma {:induction false} StripLinesConcat(a: seq<string>, b: seq<string>)
    ensures StripLines(a + b) == StripLines(a) + StripLines(b)
    decreases |a|
  {
    if |a| == 0 {
      assert a + b == b;
    } else {
      var ab := a + b;
      assert ab[0] == a[0];
      assert ab[1..] == a[1..] + b;
      StripLinesConcat(a[1..], b);
      var t := Strip(a[0]);
      var head := if t != "" then [t] else [];
      assert StripLines(ab) == head + (StripLines(a[1..]) + StripLines(b));
      AppendAssoc(head, StripLines(a[1..]), StripLines(b));
    }
  }

  /** Already trimmed lines pass through unchanged. */
  lemma {:induction false} StripLinesTrimmed(ls: seq<string>)
    requires forall k | 0 <= k < |ls| :: Trimmed(ls[k])
    ensures StripLines(ls) == ls
    decreases |ls|
  {
    if |ls| > 0 {
      StripTrimmed(ls[0]);
      StripLinesTrimmed(ls[1..]);
    }
  }

  /** Stripping lines keeps only characters of the lines. */
  lemma {:induction false} StripLinesAll(ls: seq<string>, P: char -> bool)
    requires forall k | 0 <= k < |ls| :: All(ls[k], P)
    ensures forall k | 0 <= k < |StripLines(ls)| :: All(StripLines(ls)[k], P)
    decreases |ls|
  {
    if |ls| > 0 {
      var t := Strip(ls[0]);
      var rest := StripLines(ls[1..]);
      assert All(t, P) by {
        AllStrip(ls[0], P);
      }
      StripLinesAll(ls[1..], P);
      if t != "" {
        assert StripLines(ls) == [t] + rest;
      } else {
        assert StripLines(ls) == rest;
      }
    }
  }

  predicate NotNewline(c: char) {
    c != '\n'
  }

  /** The lines of the sanitised response, before they are joined. The passes
      run in this order: filter, rewrite pairs, rewrite lone carriage returns,
      split on newlines, strip each line and drop the empty ones. */
  function CleanLines(s: string): (ls: seq<string>)
    ensures forall k | 0 <= k < |ls| :: Trimmed(ls[k])
    ensures forall k | 0 <= k < |ls| :: All(ls[k], CleanChar) && All(ls[k], NotNewline)
  {
    ReplaceCrLfKept(FilterChars(s));
    var chars := ReplaceCr(ReplaceCrLf(FilterChars(s)));
    var pieces := Split(chars, '\n');
    AllSplit(chars, '\n', CleanChar);
    assert forall k | 0 <= k < |pieces| :: All(pieces[k], NotNewline);
    StripLinesAll(pieces, CleanChar);
    StripLinesAll(pieces, NotNewline);
    StripLines(pieces)
  }

  /** Joining trimmed, newline-free lines gives a text whose lines are those. */
  lemma JoinTrimmedLines(ls: seq<string>)
    requires forall k | 0 <= k < |ls| :: Trimmed(ls[k]) && All(ls[k], NotNewline)
    ensures Join(ls, '\n') != "" ==> forall k | 0 <= k < |Split(Join(ls, '\n'), '\n')| :: Trimmed(Split(Join(ls, '\n'), '\n')[k])
  {
    if |ls| > 0 {
      SplitJoin(ls, '\n');
    }
  }

  /** `_clean_response`: the result holds only printable characters, newlines and
      tabs (so no carriage return), and unless it is empty every one of its lines
      is non-empty with no whitespace at either end. */
  function CleanResponse(s: string): (r: string)
    ensures All(r, CleanChar)
    ensures '\r' !in r
    ensures r != "" ==> forall k | 0 <= k < |Split(r, '\n')| :: Trimmed(Split(r, '\n')[k])
  {
    var ls := CleanLines(s);
    AllJoin(ls, '\n', CleanChar);
    JoinTrimmedLines(ls);
    assert !CleanChar('\r');
    Join(ls, '\n')
  }

  /** On a text of printable characters, newlines and tabs the character passes
      change nothing: only splitting and stripping remain. */
  lemma CleanLinesOfCleanText(s: string)
    requires All(s, CleanChar)
    ensures CleanLines(s) == StripLines(Split(s, '\n'))
  {
    assert All(s, Kept);
    FilterCharsKept(s);
    assert !CleanChar('\r');
    ReplaceCrLfNoCr(s);
    assert ReplaceCr(ReplaceCrLf(FilterChars(s))) == s;
  }

  /** Lines that are already trimmed, clean and newline-free, joined with
      newlines, come back from sanitising exactly as they were. */
  lemma CleanResponseFixedPoint(ls: seq<string>)
    requires forall k | 0 <= k < |ls| :: Trimmed(ls[k]) && All(ls[k], CleanChar) && All(ls[k], NotNewline)
    ensures CleanResponse(Join(ls, '\n')) == Join(ls, '\n')
  {
    var r := Join(ls, '\n');
    AllJoin(ls, '\n', CleanChar);
    CleanLinesOfCleanText(r);
    if |ls| == 0 {
      assert Split(r, '\n') == [[]];
    } else {
      SplitJoin(ls, '\n');
      StripLinesTrimmed(ls);
    }
  }

  /** Sanitising twice is the same as sanitising once. */
  lemma CleanResponseIdempotent(s: string)
    ensures CleanResponse(CleanResponse(s)) == CleanResponse(s)
  {
    CleanResponseFixedPoint(CleanLines(s));
  }

  /** A single line of printable characters and tabs is sanitised to its
      stripped form. */
  lemma CleanResponseSingleLine(l: string)
    requires All(l, CleanChar) && '\n' !in l
    ensures CleanResponse(l) == Strip(l)
  {
    CleanLinesOfCleanText(l);
    SplitNoSeparator(l, '\n');
    StripLinesSingle(l);
  }

  /** The sanitised text is the join of its lines, and splitting it on "\n"
      gives back exactly those lines. */
  lemma CleanResponseLines(s: string)
    ensures CleanLines(s) != [] ==> Split(CleanResponse(s), '\n') == CleanLines(s)
  {
    if CleanLines(s) != [] {
      SplitJoin(CleanLines(s), '\n');
    }
  }
}

=== FILE: signatures.dfy ===
/** The device-signature catalogue (`DeviceSignatures` in app/devices/detection.py):
    the ordered list of known device types, the global probe settings, and the USB
    vendor/product-ID pre-filter built from it. */
module Signatures {
  import opened Common
  import opened Text

  /** One catalogue entry. `usbIds` and `responseFormat` are the JSON objects of
      the signature file; an absent object is the empty map. */
  datatype Signature = Signature(
    deviceType: string,
    displayName: string,
    manufacturer: string,
    knownModels: seq<string>,
    modelPatterns: seq<string>,
    usbIds: map<string, string>,
    responseFormat: map<string, string>)

  /** The `detection_settings` object; each key may be missing. */
  datatype Settings = Settings(
    baudrate: Option<int>,
    timeout: Option<real>,
    command: Option<string>,
    retryCount: Option<int>)

  /** The whole signature document: `devices` in priority order plus settings. */
  datatype Catalogue = Catalogue(devices: seq<Signature>, detectionSettings: Option<Settings>)

  /** The probe parameters `detect` reads, each with its fallback applied. */
  datatype ProbeParameters = ProbeParameters(baudrate: int, timeout: real, command: string, retryCount: int)

  const ModelField: string := "model_regex"
  const SerialField: string := "serial_regex"
  const FirmwareField: string := "firmware_regex"

  const DefaultBaudrate: int := 115200
  const DefaultTimeout: real := 2.0
  const DefaultCommand: string := "ver\r\n"
  const DefaultRetryCount: int := 2

  const DefaultSettings: Settings :=
    Settings(Some(DefaultBaudrate), Some(DefaultTimeout), Some(DefaultCommand), Some(DefaultRetryCount))

  /** The patterns both built-in signatures share for model and serial number. */
  const DefaultModelRegex: string := @"(?:Model|Product)[\s:]+(.+?)(?:\r|\n|$)"
  const DefaultSerialRegex: string := @"(?:Serial|SN|S/N)[\s:#]+([A-Z0-9\-]+)"

  /** The built-in catalogue used when no signature file can be read. */
  const DefaultCatalogue: Catalogue := Catalogue(
    [
      Signature(
        "atlas3", "Atlas3 PCIe Switch", "Serial Cables",
        ["PCI6-AD-X16HI-BG6-144", "PCI6-AD-X16HI-BG6-80"],
        ["PCI6-AD"],
        map[],
        map[ModelField := DefaultModelRegex,
            SerialField := DefaultSerialRegex,
            FirmwareField := @"(?:FW|Firmware|MCU|Version|Ver)[\s:]+v?([0-9]+\.[0-9]+\.?[0-9]*)"]),
      Signature(
        "hydra", "HYDRA JBOF Controller", "Serial Cables",
        ["PCI6-ENC8-E3-08", "PCIe Gen6 8bays JBOF", "PCIe Gen6 8Bays JBOF"],
        ["PCI6-ENC8", "JBOF"],
        map[],
        map[ModelField := DefaultModelRegex,
            SerialField := DefaultSerialRegex,
            FirmwareField := @"(?:FW|Firmware|Version|Ver)[\s:]+v?([0-9]+\.[0-9]+\.?[0-9]*)"])
    ],
    Some(DefaultSettings))

  function Lookup(m: map<string, string>, key: string, default: string): string {
    if key in m then m[key] else default
  }

  /** `get_settings`: the document's settings object, or, when the document
      has none, one holding all four built-in values. */
  function GetSettings(cat: Catalogue): (r: Settings)
    ensures cat.detectionSettings.Some? ==> r == cat.detectionSettings.value
    ensures cat.detectionSettings.None? ==> r == Settings(Some(115200), Some(2.0), Some("ver\r\n"), Some(2))
  {
    cat.detectionSettings.GetOr(DefaultSettings)
  }

  /** The `settings.get(key, default)` reads performed by `detect`: a key the
      settings hold yields its value, a missing key the built-in default. */
  function ResolveSettings(s: Settings): (r: ProbeParameters)
    ensures r.baudrate == if s.baudrate.Some? then s.baudrate.value else 115200
    ensures r.timeout == if s.timeout.Some? then s.timeout.value else 2.0
    ensures r.command == if s.command.Some? then s.command.value else "ver\r\n"
    ensures r.retryCount == if s.retryCount.Some? then s.retryCount.value else 2
  {
    ProbeParameters(
      s.baudrate.GetOr(DefaultBaudrate),
      s.timeout.GetOr(DefaultTimeout),
      s.command.GetOr(DefaultCommand),
      s.retryCount.GetOr(DefaultRetryCount))
  }

  /** Each parameter `detect` probes with comes from the document when its
      settings object holds that key, and is the built-in default otherwise. */
  lemma ProbeParametersFromDocument(cat: Catalogue)
    ensures var p := ResolveSettings(GetSettings(cat));
            match cat.detectionSettings
            case None => p == ProbeParameters(115200, 2.0, "ver\r\n", 2)
            case Some(s) =>
              && (s.baudrate.Some? ==> p.baudrate == s.baudrate.value)
              && (s.baudrate.None? ==> p.baudrate == 115200)
              && (s.timeout.Some? ==> p.timeout == s.timeout.value)
              && (s.timeout.None? ==> p.timeout == 2.0)
              && (s.command.Some? ==> p.command == s.command.value)
              && (s.command.None? ==> p.command == "ver\r\n")
              && (s.retryCount.Some? ==> p.retryCount == s.retryCount.value)
              && (s.retryCount.None? ==> p.retryCount == 2)
  {
  }

  /** A document without settings, and the built-in one, both probe with
      115200 baud, a 2 s timeout, the command "ver\r\n" and 2 attempts. */
  lemma DefaultProbeParameters(cat: Catalogue)
    requires cat.detectionSettings.None? || cat == DefaultCatalogue
    ensures ResolveSettings(GetSettings(cat)) == ProbeParameters(115200, 2.0, "ver\r\n", 2)
  {
  }

  /** `get_known_models`: the known models of the first signature of that type,
      or the empty list when no signature has it. */
  function GetKnownModels(cat: Catalogue, deviceType: string): (r: seq<string>)
    ensures (forall i | 0 <= i < |cat.devices| :: cat.devices[i].deviceType != deviceType) ==> r == []
    ensures forall i | 0 <= i < |cat.devices| && cat.devices[i].deviceType == deviceType ::
              (forall j | 0 <= j < i :: cat.devices[j].deviceType != deviceType) ==> r == cat.devices[i].knownModels
  {
    match FirstIndex(cat.devices, (s: Signature) => s.deviceType == deviceType)
    case None => []
    case Some(i) => cat.devices[i].knownModels
  }

  // ---------------------------------------------------------------------------
  // USB identifiers
  // ---------------------------------------------------------------------------

  /** One `(vid, pid, device_type)` triple of `get_known_usb_ids`. */
  datatype UsbEntry = UsbEntry(vid: string, pid: string, deviceType: string)

  /** The triple a single signature contributes, if its USB object is present and
      names both a vendor and a product ID. */
  function UsbEntryOf(sig: Signature): Option<UsbEntry> {
    if |sig.usbIds| == 0 then None
    else
      var vid := Upper(Lookup(sig.usbIds, "vid", ""));
      var pid := Upper(Lookup(sig.usbIds, "pid", ""));
      if vid != "" && pid != "" then Some(UsbEntry(vid, pid, sig.deviceType)) else None
  }

  /** `get_known_usb_ids`: the triples of all signatures that carry both IDs. */
  function KnownUsbIds(sigs: seq<Signature>): (r: seq<UsbEntry>)
    ensures |r| <= |sigs|
    ensures forall k | 0 <= k < |r| :: r[k].vid != "" && r[k].pid != "" && IsUpper(r[k].vid) && IsUpper(r[k].pid)
  {
    if |sigs| == 0 then []
    else
      var rest := KnownUsbIds(sigs[1..]);
      match UsbEntryOf(sigs[0])
      case None => rest
      case Some(e) =>
        UpperIdempotent(e.vid);
        UpperIdempotent(e.pid);
        [e] + rest
  }

  /** The listed triples are exactly those the individual signatures contribute. */
  lemma {:induction false} KnownUsbIdsMembers(sigs: seq<Signature>, e: UsbEntry)
    ensures e in KnownUsbIds(sigs) <==> exists i | 0 <= i < |sigs| :: UsbEntryOf(sigs[i]) == Some(e)
    decreases |sigs|
  {
    if |sigs| > 0 {
      KnownUsbIdsMembers(sigs[1..], e);
      assert forall i | 1 <= i < |sigs| :: sigs[i] == sigs[1..][i - 1];
      if i :| 1 <= i < |sigs| && UsbEntryOf(sigs[i]) == Some(e) {
        assert UsbEntryOf(sigs[1..][i - 1]) == Some(e);
      }
    }
  }

  /** The triples keep the catalogue's order: listing a concatenation lists the
      two parts one after the other. */
  lemma {:induction false} KnownUsbIdsConcat(a: seq<Signature>, b: seq<Signature>)
    ensures KnownUsbIds(a + b) == KnownUsbIds(a) + KnownUsbIds(b)
    decreases |a|
  {
    if |a| > 0 {
      assert (a + b)[1..] == a[1..] + b;
      KnownUsbIdsConcat(a[1..], b);
    } else {
      assert a + b == b;
    }
  }

  /** Windows device-manager form `VID_xxxx&PID_xxxx` (checked as two separate substrings). */
  predicate WindowsHit(vid: string, pid: string, hwidUpper: string) {
    Contains(hwidUpper, "VID_" + vid) && Contains(hwidUpper, "PID_" + pid)
  }

  /** pyserial form `VID:PID=xxxx:xxxx`. */
  function PyserialForm(vid: string, pid: string): string {
    "VID:PID=" + vid + ":" + pid
  }

  /** Bare `xxxx:xxxx` form. */
  function BareForm(vid: string, pid: string): string {
    vid + ":" + pid
  }

  /** The three tests `match_usb_id` applies to one known triple. */
  predicate UsbHit(e: UsbEntry, hwidUpper: string) {
    var vid := Upper(e.vid);
    var pid := Upper(e.pid);
    || WindowsHit(vid, pid, hwidUpper)
    || Contains(hwidUpper, PyserialForm(vid, pid))
    || Contains(hwidUpper, BareForm(vid, pid))
  }

  /** `match_usb_id`: the device type of the first known triple any of whose
      encodings occurs, case-insensitively, in the hardware-ID string. */
  function MatchUsbId(sigs: seq<Signature>, hwid: string): (r: Option<string>)
    ensures hwid == "" ==> r.None?
    ensures r.None? <==>
              hwid == "" || forall k | 0 <= k < |KnownUsbIds(sigs)| :: !UsbHit(KnownUsbIds(sigs)[k], Upper(hwid))
    ensures r.Some? ==> exists k | 0 <= k < |KnownUsbIds(sigs)| ::
                          && UsbHit(KnownUsbIds(sigs)[k], Upper(hwid))
                          && r.value == KnownUsbIds(sigs)[k].deviceType
                          && forall j | 0 <= j < k :: !UsbHit(KnownUsbIds(sigs)[j], Upper(hwid))
  {
    if hwid == "" then None
    else
      var hwidUpper := Upper(hwid);
      match FirstIndex(KnownUsbIds(sigs), (e: UsbEntry) => UsbHit(e, hwidUpper))
      case None => None
      case Some(k) => Some(KnownUsbIds(sigs)[k].deviceType)
  }

  /** Matching is insensitive to the case of the hardware-ID string. */
  lemma MatchUsbIdUpper(sigs: seq<Signature>, hwid: string)
    ensures MatchUsbId(sigs, Upper(hwid)) == MatchUsbId(sigs, hwid)
  {
    UpperIdempotent(hwid);
  }

  /** The pyserial test is subsumed by the bare test: every string containing
      `VID:PID=v:p` also contains `v:p`. */
  lemma PyserialHitIsBareHit(vid: string, pid: string, hwidUpper: string)
    requires Contains(hwidUpper, PyserialForm(vid, pid))
    ensures Contains(hwidUpper, BareForm(vid, pid))
  {
    assert PyserialForm(vid, pid) == "VID:PID=" + BareForm(vid, pid);
    ContainsParts(hwidUpper, "VID:PID=", BareForm(vid, pid));
  }

  /** Hence the match is unchanged if the pyserial test is dropped. */
  lemma UsbHitWithoutPyserial(e: UsbEntry, hwidUpper: string)
    ensures UsbHit(e, hwidUpper) <==>
              (|| WindowsHit(Upper(e.vid), Upper(e.pid), hwidUpper)
               || Contains(hwidUpper, BareForm(Upper(e.vid), Upper(e.pid))))
  {
    if Contains(hwidUpper, PyserialForm(Upper(e.vid), Upper(e.pid))) {
      PyserialHitIsBareHit(Upper(e.vid), Upper(e.pid), hwidUpper);
    }
  }

  /** `x` embedded anywhere in a string is found after upper-casing both. */
  lemma EmbeddedUpper(pre: string, x: string, post: string)
    ensures Contains(Upper(pre + x + post), Upper(x))
  {
    UpperConcat(pre + x, post);
    UpperConcat(pre, x);
    var s := Upper(pre) + Upper(x) + Upper(post);
    assert s[|pre|..|pre| + |x|] == Upper(x);
    OccursAtContains(s, Upper(x), |pre|);
  }

  lemma WindowsFormRecognised(e: UsbEntry, pre: string, post: string)
    requires IsUpper(e.vid) && IsUpper(e.pid)
    ensures UsbHit(e, Upper(pre + "VID_" + Lower(e.vid) + "&PID_" + Lower(e.pid) + post))
  {
    var v, p := e.vid, e.pid;
    UpperOfLower(v);
    UpperOfLower(p);
    var w := "VID_" + Lower(v) + "&PID_" + Lower(p);
    assert pre + "VID_" + Lower(v) + "&PID_" + Lower(p) + post == pre + w + post;
    EmbeddedUpper(pre, w, post);
    UpperConcat("VID_" + Lower(v) + "&PID_", Lower(p));
    UpperConcat("VID_" + Lower(v), "&PID_");
    UpperConcat("VID_", Lower(v));
    assert Upper(w) == ("VID_" + v) + ("&" + ("PID_" + p));
    ContainsParts(Upper(pre + w + post), "VID_" + v, "&" + ("PID_" + p));
    ContainsParts(Upper(pre + w + post), "&", "PID_" + p);
  }

  lemma PyserialFormRecognised(e: UsbEntry, pre: string, post: string)
    requires IsUpper(e.vid) && IsUpper(e.pid)
    ensures UsbHit(e, Upper(pre + PyserialForm(Lower(e.vid), Lower(e.pid)) + post))
  {
    var v, p := e.vid, e.pid;
    UpperOfLower(v);
    UpperOfLower(p);
    var y := PyserialForm(Lower(v), Lower(p));
    EmbeddedUpper(pre, y, post);
    UpperConcat("VID:PID=" + Lower(v) + ":", Lower(p));
    UpperConcat("VID:PID=" + Lower(v), ":");
    UpperConcat("VID:PID=", Lower(v));
    assert Upper(y) == PyserialForm(v, p);
  }

  lemma BareFormRecognised(e: UsbEntry, pre: string, post: string)
    requires IsUpper(e.vid) && IsUpper(e.pid)
    ensures UsbHit(e, Upper(pre + BareForm(Lower(e.vid), Lower(e.pid)) + post))
  {
    var v, p := e.vid, e.pid;
    UpperOfLower(v);
    UpperOfLower(p);
    var b := BareForm(Lower(v), Lower(p));
    EmbeddedUpper(pre, b, post);
    UpperConcat(Lower(v) + ":", Lower(p));
    UpperConcat(Lower(v), ":");
    assert Upper(b) == BareForm(v, p);
  }

  /** A known triple is recognised in each of the three documented encodings,
      written in either case, wherever it sits in the hardware-ID string. */
  lemma UsbEncodingsRecognised(e: UsbEntry, pre: string, post: string)
    requires IsUpper(e.vid) && IsUpper(e.pid)
    ensures UsbHit(e, Upper(pre + "VID_" + Lower(e.vid) + "&PID_" + Lower(e.pid) + post))
    ensures UsbHit(e, Upper(pre + PyserialForm(Lower(e.vid), Lower(e.pid)) + post))
    ensures UsbHit(e, Upper(pre + BareForm(Lower(e.vid), Lower(e.pid)) + post))
  {
    WindowsFormRecognised(e, pre, post);
    PyserialFormRecognised(e, pre, post);
    BareFormRecognised(e, pre, post);
  }

  /** The first known triple is reported for a hardware-ID string carrying its
      pair in any documented encoding. */
  lemma FirstUsbEntryRecognised(sigs: seq<Signature>, pre: string, post: string)
    requires |KnownUsbIds(sigs)| > 0
    ensures var e := KnownUsbIds(sigs)[0];
            && MatchUsbId(sigs, pre + "VID_" + Lower(e.vid) + "&PID_" + Lower(e.pid) + post) == Some(e.deviceType)
            && MatchUsbId(sigs, pre + PyserialForm(Lower(e.vid), Lower(e.pid)) + post) == Some(e.deviceType)
            && MatchUsbId(sigs, pre + BareForm(Lower(e.vid), Lower(e.pid)) + post) == Some(e.deviceType)
  {
    var e := KnownUsbIds(sigs)[0];
    UsbEncodingsRecognised(e, pre, post);
  }

  /** The built-in catalogue declares no USB identifiers. */
  lemma DefaultCatalogueHasNoUsbIds()
    ensures KnownUsbIds(DefaultCatalogue.devices) == []
  {
    var sigs := DefaultCatalogue.devices;
    assert UsbEntryOf(sigs[0]).None? && UsbEntryOf(sigs[1]).None?;
    assert sigs[1..][1..] == [];
  }

  // ---------------------------------------------------------------------------
  // Enumerated ports
  // ---------------------------------------------------------------------------

  /** An enumerated serial port: its name, its hardware-ID string (empty when
      unknown), and the numeric USB IDs when the platform supplies them. */
  datatype PortInfo = PortInfo(device: string, hwid: string, vid: Option<nat>, pid: Option<nat>)

  /** A triple's IDs, upper-cased, equal the two rendered numbers. */
  predicate IdsEqual(e: UsbEntry, vidHex: string, pidHex: string) {
    Upper(e.vid) == vidHex && Upper(e.pid) == pidHex
  }

  /** The numeric test of `match_port_info`: both IDs, rendered as `{:04X}`,
      equal the triple's upper-cased IDs. */
  predicate NumericHit(e: UsbEntry, vid: nat, pid: nat) {
    IdsEqual(e, Hex04(vid), Hex04(pid))
  }

  /** A known triple accepts at most one numeric vendor ID and one product ID. */
  lemma NumericHitUnique(e: UsbEntry, v1: nat, p1: nat, v2: nat, p2: nat)
    ensures NumericHit(e, v1, p1) && NumericHit(e, v2, p2) ==> v1 == v2 && p1 == p2
  {
    if NumericHit(e, v1, p1) && NumericHit(e, v2, p2) {
      Hex04Injective(v1, v2);
      Hex04Injective(p1, p2);
    }
  }

  /** The numeric fallback of `match_port_info`: the device type of the first
      triple whose IDs equal the numbers rendered as four-digit hexadecimal. */
  function MatchNumericIds(sigs: seq<Signature>, vid: nat, pid: nat): (r: Option<string>)
    ensures r.None? <==> forall k | 0 <= k < |KnownUsbIds(sigs)| :: !NumericHit(KnownUsbIds(sigs)[k], vid, pid)
    ensures r.Some? ==> exists k | 0 <= k < |KnownUsbIds(sigs)| ::
                          && NumericHit(KnownUsbIds(sigs)[k], vid, pid)
                          && r.value == KnownUsbIds(sigs)[k].deviceType
                          && forall j | 0 <= j < k :: !NumericHit(KnownUsbIds(sigs)[j], vid, pid)
  {
    var vidHex, pidHex := Hex04(vid), Hex04(pid);
    match FirstIndex(KnownUsbIds(sigs), (e: UsbEntry) => IdsEqual(e, vidHex, pidHex))
    case None => None
    case Some(k) =>
      assert NumericHit(KnownUsbIds(sigs)[k], vid, pid);
      Some(KnownUsbIds(sigs)[k].deviceType)
  }

  /** `match_port_info`: a non-empty hardware-ID match is returned unchanged;
      otherwise the numeric fallback when both numbers are present; otherwise
      nothing. */
  function MatchPortInfo(sigs: seq<Signature>, port: PortInfo): (r: Option<string>)
    ensures Truthy(MatchUsbId(sigs, port.hwid)) ==> r == MatchUsbId(sigs, port.hwid)
    ensures !Truthy(MatchUsbId(sigs, port.hwid)) && (port.vid.None? || port.pid.None?) ==> r.None?
    ensures !Truthy(MatchUsbId(sigs, port.hwid)) && port.vid.Some? && port.pid.Some? ==>
              r == MatchNumericIds(sigs, port.vid.value, port.pid.value)
  {
    var byHwid := if port.hwid != "" then MatchUsbId(sigs, port.hwid) else None;
    if Truthy(byHwid) then byHwid
    else if port.vid.Some? && port.pid.Some? then MatchNumericIds(sigs, port.vid.value, port.pid.value)
    else None
  }

  /** With the built-in catalogue no port is recognised by its USB identity. */
  lemma DefaultCatalogueMatchesNoPort(port: PortInfo)
    ensures MatchPortInfo(DefaultCatalogue.devices, port).None?
  {
    DefaultCatalogueHasNoUsbIds();
  }
}

=== FILE: text.dfy ===
/** The Python string operations the detection code relies on, written out over
    `seq<char>`: substring search (`p in s`), ASCII case mapping (`upper`/`lower`),
    stripping (`strip`/`rstrip`), splitting and joining on one separator character,
    and the `'{n:04X}'` hexadecimal rendering. */
module Text {

  // ---------------------------------------------------------------------------
  // Substring search
  // ---------------------------------------------------------------------------

  predicate IsPrefix(p: string, s: string) {
    |p| <= |s| && s[..|p|] == p
  }

  /** `p` occurs in `s` starting at index `i`. */
  predicate OccursAt(s: string, p: string, i: int) {
    0 <= i && i + |p| <= |s| && s[i..i + |p|] == p
  }

  /** Python's `p in s` for two strings: the empty string occurs everywhere. */
  predicate Contains(s: string, p: string)
    decreases |s|
  {
    IsPrefix(p, s) || (|s| > 0 && Contains(s[1..], p))
  }

  /** An occurrence at any index makes `Contains` hold. */
  lemma {:induction false} OccursAtContains(s: string, p: string, i: int)
    requires OccursAt(s, p, i)
    ensures Contains(s, p)
    decreases i
  {
    if i > 0 {
      assert s[1..][i - 1..i - 1 + |p|] == s[i..i + |p|];
      OccursAtContains(s[1..], p, i - 1);
    }
  }

  lemma {:induction false} ContainsOccurs(s: string, p: string)
    requires Contains(s, p)
    ensures exists i :: OccursAt(s, p, i)
    decreases |s|
  {
    if IsPrefix(p, s) {
      assert OccursAt(s, p, 0);
    } else {
      ContainsOccurs(s[1..], p);
      var i :| OccursAt(s[1..], p, i);
      assert s[1..][i..i + |p|] == s[i + 1..i + 1 + |p|];
      assert OccursAt(s, p, i + 1);
    }
  }

  /** `Contains` is exactly "occurs at some index". */
  lemma ContainsIff(s: string, p: string)
    ensures Contains(s, p) <==> exists i :: OccursAt(s, p, i)
  {
    if Contains(s, p) {
      ContainsOccurs(s, p);
    } else if i :| OccursAt(s, p, i) {
      OccursAtContains(s, p, i);
    }
  }

  /** A substring of a substring is a substring. */
  lemma ContainsTransitive(s: string, q: string, p: string)
    requires Contains(s, q) && Contains(q, p)
    ensures Contains(s, p)
  {
    ContainsIff(s, q);
    ContainsIff(q, p);
    var i :| OccursAt(s, q, i);
    var j :| OccursAt(q, p, j);
    assert q == s[i..i + |q|];
    forall k | 0 <= k < |p|
      ensures p[k] == s[i + j + k]
    {
      assert p[k] == q[j + k];
    }
    assert s[i + j..i + j + |p|] == p;
    OccursAtContains(s, p, i + j);
  }

  /** Both halves of a concatenation that occurs in `s` occur in `s`. */
  lemma ContainsParts(s: string, a: string, b: string)
    requires Contains(s, a + b)
    ensures Contains(s, a) && Contains(s, b)
  {
    assert (a + b)[..|a|] == a;
    assert OccursAt(a + b, a, 0);
    assert (a + b)[|a|..|a| + |b|] == b;
    assert OccursAt(a + b, b, |a|);
    OccursAtContains(a + b, a, 0);
    OccursAtContains(a + b, b, |a|);
    ContainsTransitive(s, a + b, a);
    ContainsTransitive(s, a + b, b);
  }

  lemma ContainsSelf(s: string)
    ensures Contains(s, s)
  {
    assert s[..|s|] == s;
  }

  // ---------------------------------------------------------------------------
  // Case mapping (ASCII letters only)
  // ---------------------------------------------------------------------------

  function UpperChar(c: char): char {
    if 'a' <= c <= 'z' then (c as int - 32) as char else c
  }

  function LowerChar(c: char): char {
    if 'A' <= c <= 'Z' then (c as int + 32) as char else c
  }

  /** `s.upper()` */
  function Upper(s: string): (r: string)
    ensures |r| == |s|
  {
    seq(|s|, i requires 0 <= i < |s| => UpperChar(s[i]))
  }

  /** `s.lower()` */
  function Lower(s: string): (r: string)
    ensures |r| == |s|
  {
    seq(|s|, i requires 0 <= i < |s| => LowerChar(s[i]))
  }

  lemma UpperIdempotent(s: string)
    ensures Upper(Upper(s)) == Upper(s)
  {
  }

  lemma UpperConcat(a: string, b: string)
    ensures Upper(a + b) == Upper(a) + Upper(b)
  {
  }

  /** Upper-casing the text after lower-casing it is the same as upper-casing it. */
  lemma UpperOfLower(s: string)
    ensures Upper(Lower(s)) == Upper(s)
  {
  }

  /** A string that is already upper-case is unchanged by `upper`. */
  predicate IsUpper(s: string) {
    Upper(s) == s
  }

  // ---------------------------------------------------------------------------
  // Stripping
  // ---------------------------------------------------------------------------

  /** `c.isspace()`: the characters `str.strip()` removes by default. */
  predicate IsSpace(c: char) {
    || '\t' <= c <= '\r'
    || '\U{001C}' <= c <= ' '
    || c == '\U{0085}' || c == '\U{00A0}' || c == '\U{1680}'
    || '\U{2000}' <= c <= '\U{200A}'
    || c == '\U{2028}' || c == '\U{2029}' || c == '\U{202F}' || c == '\U{205F}' || c == '\U{3000}'
  }

  /** The number of leading characters of `s` that satisfy `strip`. */
  function LeadingCount(s: string, strip: char -> bool): nat
    decreases |s|
  {
    if |s| > 0 && strip(s[0]) then 1 + LeadingCount(s[1..], strip) else 0
  }

  /** The number of trailing characters of `s` that satisfy `strip`. */
  function TrailingCount(s: string, strip: char -> bool): nat
    decreases |s|
  {
    if |s| > 0 && strip(s[|s| - 1]) then 1 + TrailingCount(s[..|s| - 1], strip) else 0
  }

  /** `LeadingCount` measures the longest prefix of characters satisfying `strip`. */
  lemma {:induction false} LeadingCountSpec(s: string, strip: char -> bool)
    ensures LeadingCount(s, strip) <= |s|
    ensures forall i | 0 <= i < LeadingCount(s, strip) :: strip(s[i])
    ensures LeadingCount(s, strip) == |s| || !strip(s[LeadingCount(s, strip)])
    decreases |s|
  {
    if |s| > 0 && strip(s[0]) {
      LeadingCountSpec(s[1..], strip);
    }
  }

  /** `TrailingCount` measures the longest suffix of characters satisfying `strip`. */
  lemma {:induction false} TrailingCountSpec(s: string, strip: char -> bool)
    ensures TrailingCount(s, strip) <= |s|
    ensures forall i | |s| - TrailingCount(s, strip) <= i < |s| :: strip(s[i])
    ensures TrailingCount(s, strip) == |s| || !strip(s[|s| - TrailingCount(s, strip) - 1])
    decreases |s|
  {
    if |s| > 0 && strip(s[|s| - 1]) {
      TrailingCountSpec(s[..|s| - 1], strip);
    }
  }

  /** `s.rstrip(cs)`: drop the longest suffix of characters satisfying `strip`. */
  function RStrip(s: string, strip: char -> bool): (r: string)
    ensures |r| <= |s|
    ensures |r| == 0 || !strip(r[|r| - 1])
  {
    TrailingCountSpec(s, strip);
    s[..|s| - TrailingCount(s, strip)]
  }

  /** `rstrip` keeps a prefix and removes only characters satisfying `strip`. */
  lemma RStripParts(s: string, strip: char -> bool)
    ensures IsPrefix(RStrip(s, strip), s)
    ensures forall i | |RStrip(s, strip)| <= i < |s| :: strip(s[i])
  {
    TrailingCountSpec(s, strip);
  }

  /** `s.strip()`: drop leading and trailing whitespace; a string made only of
      whitespace strips to the empty string. */
  function Strip(s: string): (r: string)
    ensures |r| == 0 || (!IsSpace(r[0]) && !IsSpace(r[|r| - 1]))
    ensures Contains(s, r)
  {
    LeadingCountSpec(s, IsSpace);
    TrailingCountSpec(s, IsSpace);
    var a := LeadingCount(s, IsSpace);
    if a == |s| then
      assert OccursAt(s, [], 0);
      OccursAtContains(s, [], 0);
      []
    else
      var b := |s| - TrailingCount(s, IsSpace);
      assert OccursAt(s, s[a..b], a);
      OccursAtContains(s, s[a..b], a);
      s[a..b]
  }

  /** Stripping removes only whitespace, and only at the two ends. */
  lemma StripParts(s: string)
    ensures exists a :: OccursAt(s, Strip(s), a)
                        && (forall i | 0 <= i < a :: IsSpace(s[i]))
                        && (forall i | a + |Strip(s)| <= i < |s| :: IsSpace(s[i]))
  {
    LeadingCountSpec(s, IsSpace);
    TrailingCountSpec(s, IsSpace);
    var a := LeadingCount(s, IsSpace);
    if a == |s| {
      assert OccursAt(s, Strip(s), a);
    } else {
      assert OccursAt(s, Strip(s), a);
    }
  }

  /** A string with no whitespace at either end is its own strip. */
  lemma StripTrimmed(s: string)
    requires |s| == 0 || (!IsSpace(s[0]) && !IsSpace(s[|s| - 1]))
    ensures Strip(s) == s
  {
  }

  // ---------------------------------------------------------------------------
  // Splitting and joining on one separator character
  // ---------------------------------------------------------------------------

  /** `s.split(d)` for a one-character separator: always at least one piece,
      and no piece contains the separator. */
  function Split(s: string, d: char): (r: seq<string>)
    ensures |r| >= 1
    ensures forall i | 0 <= i < |r| :: d !in r[i]
    decreases |s|
  {
    if |s| == 0 then [[]]
    else
      var rest := Split(s[1..], d);
      if s[0] == d then [[]] + rest
      else [[s[0]] + rest[0]] + rest[1..]
  }

  /** `str.join`: the pieces in order, with `d` between each two neighbours. */
  function Join(ls: seq<string>, d: char): string
    decreases |ls|
  {
    if |ls| == 0 then []
    else if |ls| == 1 then ls[0]
    else ls[0] + [d] + Join(ls[1..], d)
  }

  /** Joining two non-empty lists puts one separator between their joins. */
  lemma {:induction false} JoinAppend(a: seq<string>, b: seq<string>, d: char)
    requires |a| >= 1 && |b| >= 1
    ensures Join(a + b, d) == Join(a, d) + [d] + Join(b, d)
    decreases |a|
  {
    if |a| == 1 {
      assert (a + b)[1..] == b;
    } else {
      assert (a + b)[1..] == a[1..] + b;
      JoinAppend(a[1..], b, d);
    }
  }

  /** The join of a non-empty list begins every longer list's join. */
  lemma JoinPrefix(a: seq<string>, b: seq<string>, d: char)
    requires |a| >= 1
    ensures IsPrefix(Join(a, d), Join(a + b, d))
  {
    if |b| == 0 {
      assert a + b == a;
    } else {
      JoinAppend(a, b, d);
    }
  }

  /** Appending one piece adds a separator and the piece. */
  lemma JoinSnoc(a: seq<string>, x: string, d: char)
    requires |a| >= 1
    ensures Join(a + [x], d) == Join(a, d) + [d] + x
  {
    JoinAppend(a, [x], d);
  }

  /** Joining the pieces of a split gives back the original text. */
  lemma {:induction false} JoinSplit(s: string, d: char)
    ensures Join(Split(s, d), d) == s
    decreases |s|
  {
    if |s| > 0 {
      var rest := Split(s[1..], d);
      JoinSplit(s[1..], d);
      if s[0] == d {
        assert Join([[]] + rest, d) == [] + [d] + Join(rest, d);
        assert s == [d] + s[1..];
      } else {
        var pieces := [[s[0]] + rest[0]] + rest[1..];
        if |rest| == 1 {
          assert Join(pieces, d) == [s[0]] + rest[0];
        } else {
          assert pieces[1..] == rest[1..];
          assert Join(rest, d) == rest[0] + [d] + Join(rest[1..], d);
          assert Join(pieces, d) == [s[0]] + rest[0] + [d] + Join(rest[1..], d);
        }
        assert s == [s[0]] + s[1..];
      }
    }
  }

  lemma {:induction false} SplitNoSeparator(a: string, d: char)
    requires d !in a
    ensures Split(a, d) == [a]
    decreases |a|
  {
    if |a| > 0 {
      SplitNoSeparator(a[1..], d);
      assert [a[0]] + a[1..] == a;
    }
  }

  lemma {:induction false} SplitHead(a: string, t: string, d: char)
    requires d !in a
    ensures Split(a + [d] + t, d) == [a] + Split(t, d)
    decreases |a|
  {
    var s := a + [d] + t;
    if |a| == 0 {
      assert s[1..] == t;
    } else {
      assert s[1..] == a[1..] + [d] + t;
      SplitHead(a[1..], t, d);
      assert [a[0]] + a[1..] == a;
    }
  }

  /** Splitting a join of separator-free pieces gives back the pieces. */
  lemma {:induction false} SplitJoin(ls: seq<string>, d: char)
    requires |ls| >= 1
    requires forall i | 0 <= i < |ls| :: d !in ls[i]
    ensures Split(Join(ls, d), d) == ls
    decreases |ls|
  {
    if |ls| == 1 {
      SplitNoSeparator(ls[0], d);
    } else {
      SplitJoin(ls[1..], d);
      SplitHead(ls[0], Join(ls[1..], d), d);
      assert [ls[0]] + ls[1..] == ls;
    }
  }

  // ---------------------------------------------------------------------------
  // Character classes carried through the operations above
  // ---------------------------------------------------------------------------

  /** Every character of `s` satisfies `P`. */
  predicate All(s: string, P: char -> bool) {
    forall i | 0 <= i < |s| :: P(s[i])
  }

  /** Stripping keeps only characters of the input. */
  lemma AllStrip(s: string, P: char -> bool)
    requires All(s, P)
    ensures All(Strip(s), P)
  {
    var r := Strip(s);
    ContainsIff(s, r);
    var i :| OccursAt(s, r, i);
    assert forall k | 0 <= k < |r| :: r[k] == s[i + k];
  }

  /** The separator is the only character `Split` drops, so the pieces keep
      every property of the input's characters. */
  lemma {:induction false} AllSplit(s: string, d: char, P: char -> bool)
    requires All(s, P)
    ensures forall k | 0 <= k < |Split(s, d)| :: All(Split(s, d)[k], P)
    decreases |s|
  {
    if |s| > 0 {
      AllSplit(s[1..], d, P);
    }
  }

  /** A join adds only separator characters. */
  lemma {:induction false} AllJoin(ls: seq<string>, d: char, P: char -> bool)
    requires P(d)
    requires forall k | 0 <= k < |ls| :: All(ls[k], P)
    ensures All(Join(ls, d), P)
    decreases |ls|
  {
    if |ls| > 1 {
      AllJoin(ls[1..], d, P);
    }
  }

  // ---------------------------------------------------------------------------
  // Hexadecimal rendering: Python's f'{n:04X}'
  // ---------------------------------------------------------------------------

  const HexDigits: string := "0123456789ABCDEF"

  function HexDigitValue(c: char): nat {
    if '0' <= c <= '9' then c as nat - '0' as nat
    else if 'A' <= c <= 'F' then c as nat - 'A' as nat + 10
    else 0
  }

  /** Upper-case hexadecimal digits of `n` with no leading zeros ("0" for zero). */
  function HexUpper(n: nat): (r: string)
    ensures 1 <= |r|
    ensures forall i | 0 <= i < |r| :: r[i] in HexDigits
    decreases n
  {
    if n < 16 then [HexDigits[n]] else HexUpper(n / 16) + [HexDigits[n % 16]]
  }

  /** Value of a string of hexadecimal digits, most significant first. */
  function ParseHex(s: string): nat
    decreases |s|
  {
    if |s| == 0 then 0 else ParseHex(s[..|s| - 1]) * 16 + HexDigitValue(s[|s| - 1])
  }

  /** `f'{n:04X}'`: upper-case hexadecimal left-padded with zeros to four digits. */
  function Hex04(n: nat): (r: string)
    ensures 4 <= |r|
    ensures forall i | 0 <= i < |r| :: r[i] in HexDigits
  {
    var h := HexUpper(n);
    if |h| >= 4 then h else seq(4 - |h|, _ => '0') + h
  }

  /** Each digit of `HexDigits` reads back as its own position. */
  lemma HexDigitRoundTrip(d: nat)
    requires d < 16
    ensures HexDigitValue(HexDigits[d]) == d
  {
    if d < 10 {
      assert HexDigits[d] as nat == '0' as nat + d;
    } else {
      assert HexDigits[d] as nat == 'A' as nat + d - 10;
    }
  }

  lemma {:induction false} ParseHexUpper(n: nat)
    ensures ParseHex(HexUpper(n)) == n
    decreases n
  {
    HexDigitRoundTrip(n % 16);
    if n < 16 {
      assert HexUpper(n)[..0] == [];
    } else {
      ParseHexUpper(n / 16);
      var h := HexUpper(n);
      assert h[..|h| - 1] == HexUpper(n / 16);
    }
  }

  lemma {:induction false} ParseHexZeros(z: string, h: string)
    requires forall i | 0 <= i < |z| :: z[i] == '0'
    ensures ParseHex(z + h) == ParseHex(h)
    decreases |h| + |z|
  {
    if |h| == 0 {
      assert z + h == z;
      if |z| > 0 {
        ParseHexZeros(z[..|z| - 1], []);
        assert z[..|z| - 1] + [] == z[..|z| - 1];
      }
    } else {
      assert (z + h)[..|z + h| - 1] == z + h[..|h| - 1];
      ParseHexZeros(z, h[..|h| - 1]);
    }
  }

  /** `ParseHex` inverts the four-digit rendering. */
  lemma Hex04RoundTrip(n: nat)
    ensures ParseHex(Hex04(n)) == n
  {
    var h := HexUpper(n);
    ParseHexUpper(n);
    if |h| < 4 {
      ParseHexZeros(seq(4 - |h|, _ => '0'), h);
    }
  }

  /** Distinct numbers render differently, so a rendered ID names one number. */
  lemma Hex04Injective(a: nat, b: nat)
    requires Hex04(a) == Hex04(b)
    ensures a == b
  {
    Hex04RoundTrip(a);
    Hex04RoundTrip(b);
  }

  function Pow16(k: nat): (r: nat)
    ensures r >= 1
  {
    if k == 0 then 1 else 16 * Pow16(k - 1)
  }

  /** A number below 16^k has at most k digits. */
  lemma {:induction false} HexUpperBound(n: nat, k: nat)
    requires 1 <= k && n < Pow16(k)
    ensures |HexUpper(n)| <= k
    decreases n
  {
    if n >= 16 {
      assert k >= 2;
      assert n / 16 < Pow16(k - 1);
      HexUpperBound(n / 16, k - 1);
    }
  }
}
